=== FILE: README.md ===
# AnsiCompile: a verified model of a small terminal-screen emulator

`AnsiCompile` (nushell/.config/nushell/scripts/ruby/ansi_compile.rb) replays
captured terminal output against a grid of `height` rows by `width` cells
with a cursor and one saved cursor, and prints the final screen as plain
text. The input is text mixed with ECMA-48 control sequences:

- CUU, CUD, CUF and CUB (sections 8.3.22, 8.3.19, 8.3.20, 8.3.18 of ECMA-48);
- CHA (8.3.9);
- CUP and HVP (8.3.21, 8.3.63);
- ED (8.3.39) and EL (8.3.41);
- the non-standard `CSI s` / `CSI u` (save and restore the cursor);
- DEC private mode 25, which is ignored.

`process_text` splits the input with one regular expression into control
sequences, carriage returns, line feeds and runs of literal text. It then
applies each piece to the grid. `to_s` prints the rows down to the last one
that holds a non-space.

The project has six modules:

- `Tokenizer` (tokenizer.dfy) is the scanner, written as a hand-made matcher
  over `seq<char>`. It also has its inverse on token lists with no two
  literal runs next to each other (`SpellAll`) and a reference definition
  of what scanning keeps (`StripStray`).
- `Control` (control.dfy) is the `case` of `process_ansi_sequence`. It is
  read as a decoder from a scanned sequence to a `Command`. The `when`
  patterns are tried in source order, so the decoder follows the final
  letter and the parameter shape. Its inverse is a canonical encoder.
- `Screen` (screen.dfy) is the emulator's state as a value (`Term`) and the
  effect of each token as a function. It covers the per-character
  write/wrap/scroll rule, the cursor commands, the erasures and `to_s`.
- `Terminal` (ansi_compile.dfy) is the class `AnsiCompile`. Its fields are
  the Ruby instance variables. Its methods update them in place with the
  source's loops, and each method is proved to reach the state the `Screen`
  functions describe.
- `Properties` (properties.dfy) and `Scenarios` (scenarios.dfy) hold what
  the emulator promises, from single characters to whole runs of
  `process_text` followed by `to_s`.

A sequence that makes Ruby raise is modelled as an explicit error result,
not as a precondition. The faults are:

- `NegativeArraySize`: `Array.new` with a negative size, from ED 0 or EL 0
  with the cursor right of the margin;
- `NoRow`: indexing a row that does not exist (`nil`);
- `RowGap`: EL 2 more than one row below the end of the buffer. Ruby does
  not raise there (see "## Left out"); the model stops instead.

The methods return `Result<()>`. Processing stops at the first fault, as the
exception ends `process_text`.

## Behaviour worth knowing

The lemmas named below state these facts about the code.

- Emitted rows keep their trailing spaces. Plain text shorter than a row
  comes back padded with spaces to the grid's width (`Scenarios.PlainText`),
  not unchanged.
- A line feed from the last row leaves the cursor one row below the grid.
  The next character is then not stored: the bounds check comes before the
  scroll, and the scroll happens only once (`Properties.PutCharOutsideGrid`,
  `Properties.LineFeedAtBottomDropsChar`). Each line that starts after the
  grid is full therefore loses its first character. Feeding `height + 5`
  one-character lines does not keep the last `height` lines: on a one-row
  grid at least two cells wide, a second line makes both lines vanish
  (`Scenarios.SecondLineOnOneRowVanishes`).
- Processing the output a second time is not idempotent once the output has
  two lines. On the shape `initialize` creates, and without ED 1 or EL 1
  past the margin, every emitted row is exactly `width` cells wide, so
  replaying it wraps the cursor before the line feed moves it again. On a
  grid of at least four rows, with both lines shorter than a row and the
  second holding a non-space, a blank row then appears between the lines
  (`Scenarios.RenderTwiceAddsBlankRow`); on fewer rows the wraps can scroll
  the first line out instead. On one line of text shorter than a row, with
  at least two rows, replaying is idempotent
  (`Scenarios.RenderTwiceOneLine`). On a
  grid of one row it is not: the replayed row fills the row, wraps below the
  grid and scrolls out, so `a` on a 3-by-1 grid prints `a` and two spaces,
  and replaying that prints three spaces
  (`Scenarios.FullRowOnOneRowVanishes`).
- CHA and CUP clamp only at the first row and column, so the cursor can
  leave the grid (`Properties.AbsoluteMoves`). So can a line feed
  (`Properties.LineControls`).
- Erasing raises only in these cases (`Properties.EraseFaults`). ED 0 and
  EL 0 raise `NegativeArraySize` when x is past `width`, and otherwise `NoRow`
  when the cursor row does not exist; x equal to `width` is fine. ED 1 and
  EL 1 raise `NoRow` when the cursor row does not exist, whatever x is. EL 2
  succeeds on an existing row and one row below the buffer; further down the
  model raises `RowGap` (see "## Left out"). ED 2 and ED 3 never raise.
  ED 1 and EL 1 with the cursor at or right of the margin lengthen the
  cursor row to `x + 1` cells. EL 2 one row below the buffer appends a row
  (`Properties.Grows`, `Properties.ExecuteKeepsShape`). The model's
  `Screen.Valid` therefore allows rows longer than `width` and more than
  `height` rows. `Screen.Exact` is the shape `initialize` creates: `height`
  rows of `width` cells.
  `Properties.WriteKeepsShape` shows that writing keeps it.

## Model

| member | source | states |
|---|---|---|
| `Tokenizer.Scan` | nushell/.config/nushell/scripts/ruby/ansi_compile.rb:21 | every token is a control sequence `ESC [ [?] [0-9;]* letter`, a lone CR, a lone LF or a non-empty run free of ESC, CR and LF |
| `Tokenizer.MatchCsi` | nushell/.config/nushell/scripts/ruby/ansi_compile.rb:21 | the first two alternatives of the pattern: a match is a well-formed control sequence whose spelling is a prefix of the input |
| `Tokenizer.ParamEnd` | nushell/.config/nushell/scripts/ruby/ansi_compile.rb:21 | `[0-9;]*` takes the longest run of parameter characters |
| `Tokenizer.TextEnd` | nushell/.config/nushell/scripts/ruby/ansi_compile.rb:21 | `[^\e\r\n]+` takes the longest run of literal characters |
| `Tokenizer.ScanSpellsInput` | nushell/.config/nushell/scripts/ruby/ansi_compile.rb:21 | concatenating the tokens gives the input with exactly the ESCs removed that start no well-formed control sequence |
| `Tokenizer.MatchCsiComplete` | nushell/.config/nushell/scripts/ruby/ansi_compile.rb:21 | a well-formed control sequence at the head of the input is matched whole, whatever follows |
| `Tokenizer.ScanSpellAll` | nushell/.config/nushell/scripts/ruby/ansi_compile.rb:21 | scanning the spelling of any list of well-formed tokens with no two literal runs next to each other gives that list back |
| `Tokenizer.ScanSeparated` | nushell/.config/nushell/scripts/ruby/ansi_compile.rb:21 | on input without a stray ESC the scanner never puts two literal runs next to each other, so every literal run it takes is the longest one and `ScanSpellAll` applies to its output |
| `Tokenizer.StrayEscSplitsText` | nushell/.config/nushell/scripts/ruby/ansi_compile.rb:21 | a stray ESC between two literal runs is dropped and leaves two tokens, which scan back as one: `ScanSpellAll` needs its separation premise |
| `Control.DecimalRoundTrip` | nushell/.config/nushell/scripts/ruby/ansi_compile.rb:63 | `to_i` reads back the decimal spelling of every count |
| `Control.CountRoundTrip` | nushell/.config/nushell/scripts/ruby/ansi_compile.rb:63 | a written count is the count used, whatever the default for a missing one |
| `Control.DecodeCount` | nushell/.config/nushell/scripts/ruby/ansi_compile.rb:62-102 | the canonical spelling of a count before A, B, C, D, G, J or K decodes to that count, not to the default |
| `Control.DecodePosition` | nushell/.config/nushell/scripts/ruby/ansi_compile.rb:77-81 | `ESC [ r ; c H` and `ESC [ r ; c f` are both a cursor position with row r and column c |
| `Control.DecodePair` | nushell/.config/nushell/scripts/ruby/ansi_compile.rb:77-81 | H or f with any two digit strings around one `;` is a cursor position with their `to_i` values |
| `Control.DecodeEncode` | nushell/.config/nushell/scripts/ruby/ansi_compile.rb:61-119 | every command is what the `case` selects for its canonical sequence |
| `Control.DecodeShapes` | nushell/.config/nushell/scripts/ruby/ansi_compile.rb:61-119 | a `?` sequence does nothing; a missing count is 1 for A-D and G and 0 for J and K; parameters that are not one count make A-D, G, J and K do nothing; `ESC [ H` and `ESC [ f` go home, and H or f with parameters other than two counts do nothing; s, m and u with parameters do nothing; every other final letter does nothing |
| `Control.DecimalValue` | nushell/.config/nushell/scripts/ruby/ansi_compile.rb:63 | `to_i` of a digit string is 0 exactly when every digit is 0; with `DecimalString` it reads back every count (`Control.DecimalRoundTrip`) |
| `Control.SplitPair` | nushell/.config/nushell/scripts/ruby/ansi_compile.rb:77 | the `(\d+);(\d+)` shape: a split puts back together as `r ; c` with both halves non-empty digit strings, and `r ; c` with non-empty digit halves always splits into `r` and `c` (`Control.SplitPairOf`) |
| `Control.Count` | nushell/.config/nushell/scripts/ruby/ansi_compile.rb:63 | `($1 \|\| d).to_i`: a missing count is the default and an all-zero count is 0; a written count is read back whatever the default (`Control.CountRoundTrip`) |
| `Control.Decode` | nushell/.config/nushell/scripts/ruby/ansi_compile.rb:61-119 | each command comes only from its own `when` shape: never from a `?` sequence; the count commands from A-D, G, J or K with digit parameters; CUP from H or f with two counts; home from bare H or f; save and restore from bare s and u. `Control.DecodeShapes`, `Control.DecodeEncode` and `Control.DecodePair` state the converse |
| `Control.RejectedShapes` | nushell/.config/nushell/scripts/ruby/ansi_compile.rb:61-119 | `ESC [ 1 ; 2 A`, `ESC [ 5 u`, `ESC [ 1 ; 2 ; 3 H` and `ESC [ ; 5 f` match no `when` and do nothing |
| `Screen.Init` | nushell/.config/nushell/scripts/ruby/ansi_compile.rb:4-12 | a new emulator has exactly `height` rows of `width` spaces, and both cursors are at (0,0) |
| `Screen.Scrolled` | nushell/.config/nushell/scripts/ruby/ansi_compile.rb:53-54 | `shift` then `push`: every row moves up one, row 0 is gone and the last row is blank |
| `Screen.PutChar` | nushell/.config/nushell/scripts/ruby/ansi_compile.rb:38-57 | writing one character keeps the grid's dimensions, its row count and the saved cursor, and leaves the cursor inside the grid |
| `Screen.Store` | nushell/.config/nushell/scripts/ruby/ansi_compile.rb:39-43 | inside the grid the character lands in the cursor cell and the cursor moves right; outside it nothing changes; every other cell, the row count, the cursor row and the saved cursor are kept |
| `Screen.Wrap` | nushell/.config/nushell/scripts/ruby/ansi_compile.rb:45-49 | only the cursor changes: it moves to the start of the next row exactly when it is at or past the right margin |
| `Screen.ScrollIfBelow` | nushell/.config/nushell/scripts/ruby/ansi_compile.rb:51-56 | below the grid, every row moves up one, a blank row is appended and the cursor goes to the last row; otherwise nothing changes; afterwards the cursor is in the grid's rows |
| `Screen.Write` | nushell/.config/nushell/scripts/ruby/ansi_compile.rb:37-58 | the same for a whole run of text; after a non-empty run the cursor is inside the grid |
| `Screen.ClearRight` | nushell/.config/nushell/scripts/ruby/ansi_compile.rb:105 | `row[x..-1] = Array.new(width - x, ' ')`: cells before x are kept, cells from x to the margin are blank, and the row is `width` long |
| `Screen.ClearLeft` | nushell/.config/nushell/scripts/ruby/ansi_compile.rb:107 | `row[0..x] = Array.new(x + 1, ' ')`: cells 0 to x are blank, later cells are kept, and the row grows to x + 1 cells when x is past its end |
| `Screen.EraseDisplay` | nushell/.config/nushell/scripts/ruby/ansi_compile.rb:85-100 | ED only ever changes the grid, and a successful ED keeps a valid grid |
| `Screen.EraseLine` | nushell/.config/nushell/scripts/ruby/ansi_compile.rb:101-110 | EL only ever changes the grid, and a successful EL keeps a valid grid |
| `Screen.Execute` | nushell/.config/nushell/scripts/ruby/ansi_compile.rb:60-120 | every handled sequence keeps a valid grid of the same dimensions |
| `Screen.Apply` | nushell/.config/nushell/scripts/ruby/ansi_compile.rb:22-34 | each piece of the input keeps a valid grid of the same dimensions |
| `Screen.Run` | nushell/.config/nushell/scripts/ruby/ansi_compile.rb:20-35 | the pieces applied in order keep a valid grid of the same dimensions |
| `Screen.RunFailPersists` | nushell/.config/nushell/scripts/ruby/ansi_compile.rb:22-34 | once a piece raises, the rest of the input is not processed and the run ends with that fault |
| `Screen.LastInked` | nushell/.config/nushell/scripts/ruby/ansi_compile.rb:124 | the index `rindex` finds: no row after it holds a non-space, and it holds one unless it is the fallback 0 |
| `Screen.ProcessText` | nushell/.config/nushell/scripts/ruby/ansi_compile.rb:20-35 | a run that does not raise keeps a valid grid of the same dimensions; `Properties.RunKeepsNoLineFeeds` and `Scenarios.ProcessTextIs` state what it computes |
| `Screen.JoinLines` | nushell/.config/nushell/scripts/ruby/ansi_compile.rb:125 | `join("\n")`: the output starts with the first row, followed by a line feed when there is another row; `Properties.SplitJoin` states that it splits back into the rows |
| `Screen.Render` | nushell/.config/nushell/scripts/ruby/ansi_compile.rb:122-126 | the output starts with row 0 and goes beyond it exactly when some later row holds a non-space; `Properties.RenderSplits` states that it is rows 0..k joined, where k is the last row with a non-space |
| `Terminal.AnsiCompile.constructor` | nushell/.config/nushell/scripts/ruby/ansi_compile.rb:4-12 | the new object is `Screen.Init(width, height)`; the defaults are 120 by 1000 |
| `Terminal.AnsiCompile.ProcessText` | nushell/.config/nushell/scripts/ruby/ansi_compile.rb:20-35 | the `parts.each` loop leaves the object in the state `Screen.ProcessText` gives, or returns the fault it does |
| `Terminal.AnsiCompile.ProcessPart` | nushell/.config/nushell/scripts/ruby/ansi_compile.rb:23-33 | one iteration of that loop ends in the state `Screen.Apply` gives, or returns its fault with the object unchanged |
| `Terminal.AnsiCompile.WriteText` | nushell/.config/nushell/scripts/ruby/ansi_compile.rb:37-58 | the `each_char` loop ends in the state `Screen.Write` gives |
| `Terminal.AnsiCompile.WriteChar` | nushell/.config/nushell/scripts/ruby/ansi_compile.rb:39-56 | one pass of the `each_char` block (store, wrap, scroll) ends in the state `Screen.PutChar` gives |
| `Terminal.AnsiCompile.ProcessAnsiSequence` | nushell/.config/nushell/scripts/ruby/ansi_compile.rb:60-120 | the `case` ends in the state `Screen.Execute` gives for the decoded command, or returns its fault with the object unchanged |
| `Terminal.AnsiCompile.Perform` | nushell/.config/nushell/scripts/ruby/ansi_compile.rb:62-118 | each branch of the `case` ends in the state `Screen.Execute` gives for its command, or returns its fault with the object unchanged |
| `Terminal.AnsiCompile.EraseInDisplay` | nushell/.config/nushell/scripts/ruby/ansi_compile.rb:85-100 | the ED branch and its row loops change only the buffer, as `Screen.EraseDisplay` says, or return its fault with the object unchanged |
| `Terminal.AnsiCompile.EraseInLine` | nushell/.config/nushell/scripts/ruby/ansi_compile.rb:101-110 | the EL branch changes only the buffer, as `Screen.EraseLine` says, or returns its fault with the object unchanged |
| `Terminal.AnsiCompile.ToS` | nushell/.config/nushell/scripts/ruby/ansi_compile.rb:122-126 | `to_s` returns `Screen.Render` of the buffer and changes nothing |
| `Properties.PutCharStores` | nushell/.config/nushell/scripts/ruby/ansi_compile.rb:39-49 | a character written inside the grid, except in its last cell, sets only cell (y,x); x advances, or wraps to the start of the next row |
| `Properties.PutCharScrollsAtLastCell` | nushell/.config/nushell/scripts/ruby/ansi_compile.rb:39-56 | a character in the last cell is stored, then wrap and scroll happen in the same step: rows move up one, a blank row is appended and the cursor is at the start of the last row |
| `Properties.PutCharOutsideGrid` | nushell/.config/nushell/scripts/ruby/ansi_compile.rb:39-56 | a character arriving with the cursor outside the grid is not stored and causes at most one scroll, which puts the cursor on the last row |
| `Properties.WriteInRow` | nushell/.config/nushell/scripts/ruby/ansi_compile.rb:37-58 | text that fits in the rest of the cursor row is laid down from the cursor and nothing else changes |
| `Properties.LineFeedAtBottomDropsChar` | nushell/.config/nushell/scripts/ruby/ansi_compile.rb:28-56 | after a line feed from the last row, the next character is not stored anywhere, and the only effect is one scroll |
| `Properties.PutCharKeepsShape` | nushell/.config/nushell/scripts/ruby/ansi_compile.rb:38-57 | writing a character keeps exactly `height` rows of `width` cells |
| `Properties.WriteKeepsShape` | nushell/.config/nushell/scripts/ruby/ansi_compile.rb:37-58 | writing text keeps exactly `height` rows of `width` cells |
| `Properties.ExecuteKeepsShape` | nushell/.config/nushell/scripts/ruby/ansi_compile.rb:85-110 | a successful sequence keeps the shape `initialize` creates (`height` rows of `width` cells) exactly when it is not ED 1 or EL 1 with x at or past the margin, or EL 2 below the buffer |
| `Properties.RelativeMoves` | nushell/.config/nushell/scripts/ruby/ansi_compile.rb:62-73 | CUU, CUD, CUF and CUB move one coordinate by n or up to the edge, and change nothing else |
| `Properties.RelativeMovesClamp` | nushell/.config/nushell/scripts/ruby/ansi_compile.rb:62-73 | from inside the grid, CUU and CUB stay inside; CUD always ends on a row of the grid and CUF on a column of it, even with count 0 from outside |
| `Properties.CountDefaults` | nushell/.config/nushell/scripts/ruby/ansi_compile.rb:62-73 | an explicit count of 0 does not move an in-grid cursor, and a missing count moves it by one |
| `Properties.AbsoluteMoves` | nushell/.config/nushell/scripts/ruby/ansi_compile.rb:74-84 | CHA sets x to max(n-1, 0), CUP sets y and x the same way with no upper clamp, and home is (0,0); nothing else changes |
| `Properties.LineControls` | nushell/.config/nushell/scripts/ruby/ansi_compile.rb:26-30 | CR sets x to 0 and keeps y; LF sets x to 0 and adds 1 to y, leaving the grid from the last row |
| `Properties.IgnoredSequences` | nushell/.config/nushell/scripts/ruby/ansi_compile.rb:117-119 | `?` sequences, SGR and any final letter without a handler change nothing |
| `Properties.RunKeepsSaved` | nushell/.config/nushell/scripts/ruby/ansi_compile.rb:111-116 | no piece but `ESC [ s` changes the saved cursor |
| `Properties.RestoreReturnsToSave` | nushell/.config/nushell/scripts/ruby/ansi_compile.rb:111-116 | `ESC [ u` returns the cursor to where the last `ESC [ s` found it, whatever ran in between |
| `Properties.SaveOverwrites` | nushell/.config/nushell/scripts/ruby/ansi_compile.rb:111-113 | a second save replaces the first |
| `Properties.EraseLineRegion` | nushell/.config/nushell/scripts/ruby/ansi_compile.rb:101-110 | with the cursor in the grid, EL 0, 1 and 2 blank exactly [x, width), [0, x] or the whole cursor row; every other cell and the cursor are unchanged |
| `Properties.EraseDisplayRegion` | nushell/.config/nushell/scripts/ruby/ansi_compile.rb:85-100 | with the cursor in the grid, ED 0 blanks from the cursor to the end, ED 1 from the start to the cursor, ED 2 and 3 everything; every other cell and the cursor are unchanged |
| `Properties.EraseOtherModes` | nushell/.config/nushell/scripts/ruby/ansi_compile.rb:87-110 | ED modes above 3 and EL modes above 2 change nothing |
| `Properties.EraseFaults` | nushell/.config/nushell/scripts/ruby/ansi_compile.rb:85-110 | exactly when each erase fails and with which fault: NegativeArraySize for ED 0 and EL 0 right of the margin, else NoRow off the buffer; NoRow for ED 1 and EL 1 off the buffer; RowGap for EL 2 more than one row below it, where one row below appends a blank row; ED 2 and 3 never fail |
| `Properties.LineFeedThenEraseRaises` | nushell/.config/nushell/scripts/ruby/ansi_compile.rb:28-30 | a line feed from the last row followed by EL 0 raises |
| `Properties.PutCharKeepsNoLineFeeds` | nushell/.config/nushell/scripts/ruby/ansi_compile.rb:39-56 | writing a character other than a line feed never puts a line feed into the grid |
| `Properties.WriteKeepsNoLineFeeds` | nushell/.config/nushell/scripts/ruby/ansi_compile.rb:37-58 | literal text never puts a line feed into the grid |
| `Properties.EraseKeepsNoLineFeeds` | nushell/.config/nushell/scripts/ruby/ansi_compile.rb:85-110 | ED and EL only put spaces into the grid, so they never add a line feed |
| `Properties.ApplyKeepsNoLineFeeds` | nushell/.config/nushell/scripts/ruby/ansi_compile.rb:22-34 | no piece of the input puts a line feed into the grid |
| `Properties.RunKeepsNoLineFeeds` | nushell/.config/nushell/scripts/ruby/ansi_compile.rb:20-35 | no row of a grid built by `process_text` holds a line feed |
| `Properties.SplitJoin` | nushell/.config/nushell/scripts/ruby/ansi_compile.rb:125 | `join("\n")` of rows without line feeds splits back into the same rows |
| `Properties.RenderSplits` | nushell/.config/nushell/scripts/ruby/ansi_compile.rb:122-126 | `to_s` splits at its line feeds into exactly rows 0..k of the grid, trailing spaces included, where k is the last row with a non-space |
| `Properties.LastInkedIgnoresBlankRows` | nushell/.config/nushell/scripts/ruby/ansi_compile.rb:124 | appending blank rows does not move the last row with a non-space |
| `Properties.RenderIgnoresBlankRows` | nushell/.config/nushell/scripts/ruby/ansi_compile.rb:122-126 | blank rows at the bottom do not show in the output |
| `Properties.LastInkedIs` | nushell/.config/nushell/scripts/ruby/ansi_compile.rb:124 | the row `rindex` finds is the last row with a non-space, or 0 |
| `Properties.RenderFirstRowOnly` | nushell/.config/nushell/scripts/ruby/ansi_compile.rb:122-126 | when only row 0 may hold a non-space, the output is row 0 with its trailing spaces |
| `Properties.RunSnoc` | nushell/.config/nushell/scripts/ruby/ansi_compile.rb:22-34 | one more piece of input applies to the state so far, unless processing has already raised |
| `Scenarios.PlainText` | nushell/.config/nushell/scripts/ruby/ansi_compile.rb:20-58 | on a grid of at least two rows, plain text at most a row wide renders as itself padded with spaces to the width |
| `Scenarios.CarriageReturnOverwrites` | nushell/.config/nushell/scripts/ruby/ansi_compile.rb:26-27 | on any grid, with both lines shorter than a row, after `a CR b` the row holds b followed by what is left of a, then spaces |
| `Scenarios.ClearThenWrite` | nushell/.config/nushell/scripts/ruby/ansi_compile.rb:82-99 | from any grid, `ESC [ 2 J ESC [ H` then text shorter than a row renders as that text alone, padded |
| `Scenarios.PositionThenWrite` | nushell/.config/nushell/scripts/ruby/ansi_compile.rb:77-81 | `ESC [ 3 ; 5 H x` renders two blank rows and then x at column 4 of row 2 |
| `Scenarios.EncodedCommandRuns` | nushell/.config/nushell/scripts/ruby/ansi_compile.rb:20-25 | every command's canonical sequence passes through the scanner and the dispatch and does exactly that command |
| `Scenarios.CsiRuns` | nushell/.config/nushell/scripts/ruby/ansi_compile.rb:20-25 | a single well-formed control sequence as the whole input is scanned as one token and does what its decoded command does |
| `Scenarios.PositionRuns` | nushell/.config/nushell/scripts/ruby/ansi_compile.rb:77-81 | `ESC [ r ; c H` or `ESC [ r ; c f`, with any digits for r and c, goes through the scanner and the dispatch, moves the cursor to row max(r-1, 0) and column max(c-1, 0) and changes nothing else |
| `Scenarios.HomeRuns` | nushell/.config/nushell/scripts/ruby/ansi_compile.rb:82-84 | `ESC [ H` and `ESC [ f` put the cursor at (0,0) and change nothing else |
| `Scenarios.SecondLineOnOneRowVanishes` | nushell/.config/nushell/scripts/ruby/ansi_compile.rb:28-56 | on a one-row grid at least two cells wide, `a LF c` renders as a blank row |
| `Scenarios.TwoLines` | nushell/.config/nushell/scripts/ruby/ansi_compile.rb:20-58 | on a grid of at least four rows, two lines of plain text at most a row wide fill row 0 and row 1, or row 2 when the first line filled its row |
| `Scenarios.RenderTwiceAddsBlankRow` | nushell/.config/nushell/scripts/ruby/ansi_compile.rb:122-126 | on a grid of at least four rows, with both lines shorter than a row and the second holding a non-space, replaying the two-line output adds a blank row between the lines |
| `Scenarios.RenderTwiceOneLine` | nushell/.config/nushell/scripts/ruby/ansi_compile.rb:122-126 | on a grid of at least two rows, replaying a one-line output gives the same output |
| `Scenarios.FullRowOnOneRowVanishes` | nushell/.config/nushell/scripts/ruby/ansi_compile.rb:37-58 | on a grid of one row, text that exactly fills the row wraps below the grid and scrolls out, so it prints as a blank row |

## Left out

- `process_io` and the command-line block (nushell/.config/nushell/scripts/ruby/ansi_compile.rb:14-18, 129-136) are left out. They read standard input, write standard output and turn exceptions into an exit code. The model starts at `process_text(text)` and ends at `to_s`.
- Ruby's `each_char` works on UTF-8 characters. The model takes one `char` as one cell and ignores display width.
- Screen.Init: requires a width and height of at least 1, for the reason given on the next line.
- Terminal.AnsiCompile.constructor: requires a width and height of at least 1. With 0 rows, Ruby's scroll sets the cursor row to -1; with 0 columns, CUF sets the cursor column to `[x + count, width - 1].min`, which is -1. Negative indices count from the end of an array, and the model's `nat` cursor does not capture that.
- Screen.EraseLine: with the cursor more than one row below the buffer, Ruby's EL 2 pads the buffer with `nil` rows up to the cursor row and stores a blank row there. Ruby then raises only if a later step reads one of the `nil` rows (an erase on that row, or the `rindex` of `to_s`); a later ED 2 or ED 3 replaces the whole buffer, and EL 2 on each gap row fills the gaps, and then Ruby finishes normally (for example `ESC[6;1H ESC[2K ESC[2J` on a 3-row grid prints one blank row). The model has no `nil` rows: it stops with `RowGap` at the EL itself, so it reports a fault for such runs even where Ruby completes.
- Screen.EraseDisplay: when ED 1 raises because the cursor row does not exist, Ruby has already blanked or appended the rows above it. The model returns the fault and leaves the state as it was before that sequence. The same holds for every fault: the model does not capture partial updates made before an exception.
- The exception classes and their messages are reduced to the three `Fault` values.
- In Ruby, the buffer is an array of row arrays updated in place. In the model it is a `seq<seq<char>>` field that the methods reassign. Ruby's rows are distinct arrays, so no aliasing is lost.
- The ED and EL branches and the body of the `parts.each` loop are separate methods (`EraseInDisplay`, `EraseInLine`, `ProcessPart`), and so are the body of the `each_char` block (`WriteChar`) and the branches of the `case` (`Perform`, which `ProcessAnsiSequence` calls with the decoded command). In Ruby they are inline code of `process_ansi_sequence`, `process_text` and `write_text`.

=== FILE: ansi_compile.dfy ===
/** The AnsiCompile class: a fixed height x width character grid with a
    cursor and one saved cursor, updated in place by process_text. Every
    method is proved to leave the object in the state the functions of
    module Screen describe; a method that raises in the source returns the
    fault instead. */
module Terminal {
  import opened Tokenizer
  import opened Control
  import opened Screen

  /** What a method that may raise returns: Ok(()) or the fault. */
  predicate Agrees(spec: Result<Term>, r: Result<()>, now: Term) {
    if r.Ok? then spec == Ok(now) else spec == Fail(r.fault)
  }

  class AnsiCompile {
    const width: nat
    const height: nat
    var buffer: seq<seq<char>>
    var cursorX: nat
    var cursorY: nat
    var savedCursorX: nat
    var savedCursorY: nat

    /** The object's fields as a Screen.Term value. */
    function State(): Term
      reads this
    {
      Term(width, height, buffer, cursorX, cursorY, savedCursorX, savedCursorY)
    }

    ghost predicate Valid()
      reads this
    {
      Screen.Valid(State())
    }

    constructor (width: nat := DefaultWidth, height: nat := DefaultHeight)
      requires width >= 1 && height >= 1
      ensures Valid() && State() == Init(width, height)
    {
      this.width := width;
      this.height := height;
      buffer := BlankGrid(height, width);
      cursorX, cursorY := 0, 0;
      savedCursorX, savedCursorY := 0, 0;
    }

    method ProcessText(text: string) returns (r: Result<()>)
      requires Valid()
      modifies this
      ensures Valid()
      ensures Agrees(Screen.ProcessText(old(State()), text), r, State())
    {
      ghost var start := State();
      var parts := Scan(text);
      var i := 0;
      while i < |parts|
        invariant 0 <= i <= |parts|
        invariant Valid()
        invariant Run(start, parts[..i]) == Ok(State())
      {
        RunStep(start, parts, i);
        r := ProcessPart(parts[i]);
        if r.Fail? {
          RunFailPersists(start, parts, i + 1);
          return;
        }
        i := i + 1;
      }
      assert parts[..|parts|] == parts;
      r := Ok(());
    }

    /** The body of the `parts.each` loop of process_text. */
    method ProcessPart(part: Token) returns (r: Result<()>)
      requires Valid()
      modifies this
      ensures Valid()
      ensures Agrees(Apply(old(State()), part), r, State())
      ensures r.Fail? ==> State() == old(State())
    {
      r := Ok(());
      match part {
        case Csi(_, _, _) =>
          r := ProcessAnsiSequence(part);
        case CarriageReturn =>
          cursorX := 0;
        case LineFeed =>
          cursorY := cursorY + 1;
          cursorX := 0;
        case Text(chars) =>
          WriteText(chars);
      }
    }

    method WriteText(text: string)
      requires Valid()
      modifies this
      ensures Valid()
      ensures State() == Write(old(State()), text)
    {
      var i := 0;
      while i < |text|
        invariant 0 <= i <= |text|
        invariant Valid()
        invariant State() == Write(old(State()), text[..i])
      {
        WriteChar(text[i]);
        WriteStep(old(State()), text, i);
        i := i + 1;
      }
      assert text[..|text|] == text;
    }

    /** The body of the `each_char` block of write_text. */
    method WriteChar(ch: char)
      requires Valid()
      modifies this
      ensures Valid()
      ensures State() == PutChar(old(State()), ch)
    {
      ghost var stored := Store(State(), ch);
      if cursorX < width && cursorY < height {
        buffer := buffer[cursorY := buffer[cursorY][cursorX := ch]];
        cursorX := cursorX + 1;
      }
      assert State() == stored;
      ghost var wrapped := Wrap(stored);
      if cursorX >= width {
        cursorX := 0;
        cursorY := cursorY + 1;
      }
      assert State() == wrapped;
      if cursorY >= height {
        buffer := buffer[1..];
        buffer := buffer + [Blank(width)];
        cursorY := height - 1;
      }
      assert State() == ScrollIfBelow(wrapped);
    }

    /** process_ansi_sequence: the `when` patterns select a command, and its
        branch performs it. */
    method ProcessAnsiSequence(sequence: Token) returns (r: Result<()>)
      requires Valid() && sequence.Csi?
      modifies this
      ensures Valid()
      ensures Agrees(Execute(old(State()), DecodeToken(sequence)), r, State())
      ensures r.Fail? ==> State() == old(State())
    {
      r := Perform(DecodeToken(sequence));
    }

    /** The branches of the `case` in process_ansi_sequence. */
    method Perform(command: Command) returns (r: Result<()>)
      requires Valid()
      modifies this
      ensures Valid()
      ensures Agrees(Execute(old(State()), command), r, State())
      ensures r.Fail? ==> State() == old(State())
    {
      r := Ok(());
      match command {
        case CursorUp(count) =>
          cursorY := if cursorY >= count then cursorY - count else 0;
        case CursorDown(count) =>
          cursorY := Min(cursorY + count, height - 1);
        case CursorForward(count) =>
          cursorX := Min(cursorX + count, width - 1);
        case CursorBack(count) =>
          cursorX := if cursorX >= count then cursorX - count else 0;
        case CursorColumn(column) =>
          cursorX := if column >= 1 then column - 1 else 0;
        case CursorPosition(row, column) =>
          cursorY := if row >= 1 then row - 1 else 0;
          cursorX := if column >= 1 then column - 1 else 0;
        case CursorHome =>
          cursorX := 0;
          cursorY := 0;
        case EraseInDisplay(mode) =>
          r := EraseInDisplay(mode);
        case EraseInLine(mode) =>
          r := EraseInLine(mode);
        case SaveCursor =>
          savedCursorX := cursorX;
          savedCursorY := cursorY;
        case RestoreCursor =>
          cursorX := savedCursorX;
          cursorY := savedCursorY;
        case NoOp =>
      }
    }

    method EraseInDisplay(mode: nat) returns (r: Result<()>)
      requires Valid()
      modifies this`buffer
      ensures Valid()
      ensures Agrees(EraseDisplay(old(State()), mode), r, State())
      ensures r.Fail? ==> State() == old(State())
    {
      r := Ok(());
      if mode == 0 {
        if cursorX > width {
          return Fail(NegativeArraySize);
        }
        if cursorY >= |buffer| {
          return Fail(NoRow);
        }
        ghost var rows := buffer;
        buffer := buffer[cursorY := ClearRight(buffer[cursorY], cursorX, width)];
        var y := cursorY + 1;
        while y < height
          invariant y <= height || y == cursorY + 1
          invariant |buffer| == |rows|
          invariant forall i :: 0 <= i < |buffer| ==>
            buffer[i] == if i == cursorY then ClearRight(rows[i], cursorX, width)
                         else if cursorY < i < y then Blank(width)
                         else rows[i]
        {
          buffer := buffer[y := Blank(width)];
          y := y + 1;
        }
        assert EraseDisplay(old(State()), mode).value.buffer == buffer;
      } else if mode == 1 {
        if cursorY >= |buffer| {
          return Fail(NoRow);
        }
        ghost var rows := buffer;
        var y := 0;
        while y < cursorY
          invariant y <= cursorY
          invariant |buffer| == |rows|
          invariant forall i :: 0 <= i < |buffer| ==>
            buffer[i] == if i < y then Blank(width) else rows[i]
        {
          buffer := buffer[y := Blank(width)];
          y := y + 1;
        }
        buffer := buffer[cursorY := ClearLeft(buffer[cursorY], cursorX)];
        assert EraseDisplay(old(State()), mode).value.buffer == buffer;
      } else if mode == 2 || mode == 3 {
        buffer := BlankGrid(height, width);
      }
    }

    method EraseInLine(mode: nat) returns (r: Result<()>)
      requires Valid()
      modifies this`buffer
      ensures Valid()
      ensures Agrees(EraseLine(old(State()), mode), r, State())
      ensures r.Fail? ==> State() == old(State())
    {
      r := Ok(());
      if mode == 0 {
        if cursorX > width {
          return Fail(NegativeArraySize);
        }
        if cursorY >= |buffer| {
          return Fail(NoRow);
        }
        buffer := buffer[cursorY := ClearRight(buffer[cursorY], cursorX, width)];
      } else if mode == 1 {
        if cursorY >= |buffer| {
          return Fail(NoRow);
        }
        buffer := buffer[cursorY := ClearLeft(buffer[cursorY], cursorX)];
      } else if mode == 2 {
        if cursorY < |buffer| {
          buffer := buffer[cursorY := Blank(width)];
        } else if cursorY == |buffer| {
          buffer := buffer + [Blank(width)];
        } else {
          return Fail(RowGap);
        }
      }
    }

    /** to_s; the grid is only read. */
    method ToS() returns (s: string)
      ensures s == Render(buffer)
    {
      s := Render(buffer);
    }
  }
}

=== FILE: control.dfy ===
/** The `case` of AnsiCompile#process_ansi_sequence, read as a decoder from a
    scanned control sequence to the command it performs. Each `when` pattern
    is unanchored but the token holds one ESC only, so a pattern matches when
    the whole token has the pattern's shape; the first matching `when` wins. */
module Control {
  import opened Tokenizer

  datatype Command =
    | CursorUp(n: nat)                  // CUU, ECMA-48 section 8.3.22
    | CursorDown(n: nat)                // CUD, section 8.3.19
    | CursorForward(n: nat)             // CUF, section 8.3.20
    | CursorBack(n: nat)                // CUB, section 8.3.18
    | CursorColumn(n: nat)              // CHA, section 8.3.9
    | CursorPosition(row: nat, col: nat) // CUP / HVP, sections 8.3.21 and 8.3.63
    | CursorHome                        // CUP / HVP without parameters
    | EraseInDisplay(mode: nat)         // ED, section 8.3.39
    | EraseInLine(mode: nat)            // EL, section 8.3.41
    | SaveCursor                        // CSI s
    | RestoreCursor                     // CSI u
    | NoOp                              // SGR, ?25h/l and every other sequence

  predicate AllDigits(s: string) { forall i :: 0 <= i < |s| ==> IsDigit(s[i]) }

  /** Ruby's String#to_i on a string of decimal digits. */
  function DecimalValue(d: string): (n: nat)
    requires AllDigits(d)
    ensures n == 0 <==> forall i :: 0 <= i < |d| ==> d[i] == '0'
  {
    if d == [] then 0
    else DecimalValue(d[..|d| - 1]) * 10 + (d[|d| - 1] as int - '0' as int)
  }

  /** The `(\d+);(\d+)` parameter shape of CUP / HVP. */
  function SplitPair(params: string): (p: Option<(string, string)>)
    ensures p.Some? ==> params == p.value.0 + ";" + p.value.1
    ensures p.Some? ==> p.value.0 != [] && p.value.1 != [] && AllDigits(p.value.0) && AllDigits(p.value.1)
  {
    var k := IndexOf(params, ';');
    if k < |params| && params[..k] != [] && params[k + 1..] != []
       && AllDigits(params[..k]) && AllDigits(params[k + 1..])
    then Some((params[..k], params[k + 1..]))
    else None
  }

  /** `(\d+)?` read with the given default for the missing group. */
  function Count(params: string, default: nat): (n: nat)
    requires AllDigits(params)
    ensures params == [] ==> n == default
    ensures params != [] && (forall i :: 0 <= i < |params| ==> params[i] == '0') ==> n == 0
  {
    if params == [] then default else DecimalValue(params)
  }

  /** The final letters of the `ESC [ (\d+)? letter` patterns. */
  predicate TakesCount(final: char) {
    final == 'A' || final == 'B' || final == 'C' || final == 'D' || final == 'G'
    || final == 'J' || final == 'K'
  }

  /** The count a sequence without one uses: 0 for the erasures, 1 else. */
  function DefaultCount(final: char): nat {
    if final == 'J' || final == 'K' then 0 else 1
  }

  /** The command of `ESC [ (\d+)? final` with its count. */
  function CountCommand(final: char, n: nat): Command
    requires TakesCount(final)
  {
    match final
    case 'A' => CursorUp(n)
    case 'B' => CursorDown(n)
    case 'C' => CursorForward(n)
    case 'D' => CursorBack(n)
    case 'G' => CursorColumn(n)
    case 'J' => EraseInDisplay(n)
    case _ => EraseInLine(n)
  }

  /** The command a scanned sequence `ESC [ [?] params final` performs. Each
      command comes only from the shape of its own `when` pattern. */
  function Decode(private: bool, params: string, final: char): (c: Command)
    ensures c != NoOp ==> !private
    ensures (|| c.CursorUp? || c.CursorDown? || c.CursorForward? || c.CursorBack?
             || c.CursorColumn? || c.EraseInDisplay? || c.EraseInLine?)
            ==> TakesCount(final) && AllDigits(params)
    ensures c.CursorPosition? ==> (final == 'H' || final == 'f') && SplitPair(params).Some?
    ensures c.CursorHome? ==> (final == 'H' || final == 'f') && params == []
    ensures c.SaveCursor? ==> final == 's' && params == []
    ensures c.RestoreCursor? ==> final == 'u' && params == []
  {
    if private then NoOp
    else if AllDigits(params) && TakesCount(final) then
      CountCommand(final, Count(params, DefaultCount(final)))
    else if final == 'H' || final == 'f' then
      match SplitPair(params)
      case Some((r, c)) => CursorPosition(DecimalValue(r), DecimalValue(c))
      case None => if params == [] then CursorHome else NoOp
    else if params == [] && final == 's' then SaveCursor
    else if params == [] && final == 'u' then RestoreCursor
    else NoOp
  }

  function DecodeToken(tok: Token): Command
    requires tok.Csi?
  {
    Decode(tok.private, tok.params, tok.final)
  }

  /** The decimal spelling of n, without leading zeros. */
  function DecimalString(n: nat): (d: string)
    ensures d != [] && AllDigits(d)
  {
    var digit := ('0' as int + n % 10) as char;
    if n < 10 then [digit] else DecimalString(n / 10) + [digit]
  }

  lemma {:induction false} DecimalRoundTrip(n: nat)
    ensures DecimalValue(DecimalString(n)) == n
  {
    var d := DecimalString(n);
    if n >= 10 {
      DecimalRoundTrip(n / 10);
      assert d[..|d| - 1] == DecimalString(n / 10);
    }
  }

  /** A canonical control sequence for each command. */
  function Encode(cmd: Command): (tok: Token)
    ensures tok.Csi? && WellFormed(tok)
  {
    match cmd
    case CursorUp(n) => Csi(false, DecimalString(n), 'A')
    case CursorDown(n) => Csi(false, DecimalString(n), 'B')
    case CursorForward(n) => Csi(false, DecimalString(n), 'C')
    case CursorBack(n) => Csi(false, DecimalString(n), 'D')
    case CursorColumn(n) => Csi(false, DecimalString(n), 'G')
    case CursorPosition(r, c) => Csi(false, DecimalString(r) + ";" + DecimalString(c), 'H')
    case CursorHome => Csi(false, "", 'H')
    case EraseInDisplay(m) => Csi(false, DecimalString(m), 'J')
    case EraseInLine(m) => Csi(false, DecimalString(m), 'K')
    case SaveCursor => Csi(false, "", 's')
    case RestoreCursor => Csi(false, "", 'u')
    case NoOp => Csi(false, "", 'm')
  }

  lemma SplitPairOf(r: string, c: string)
    requires r != [] && c != [] && AllDigits(r) && AllDigits(c)
    ensures SplitPair(r + ";" + c) == Some((r, c))
  {
    var p := r + ";" + c;
    IndexOfAt(p, ';', |r|);
    assert p[..|r|] == r;
    assert p[|r| + 1..] == c;
  }

  /** Every command is performed by its canonical sequence. */
  lemma DecodeEncode(cmd: Command)
    ensures DecodeToken(Encode(cmd)) == cmd
  {
    match cmd
    case CursorPosition(r, c) => DecodePosition(r, c, 'H');
    case CursorUp(n) => EncodeCount(n, 'A');
    case CursorDown(n) => EncodeCount(n, 'B');
    case CursorForward(n) => EncodeCount(n, 'C');
    case CursorBack(n) => EncodeCount(n, 'D');
    case CursorColumn(n) => EncodeCount(n, 'G');
    case EraseInDisplay(m) => EncodeCount(m, 'J');
    case EraseInLine(m) => EncodeCount(m, 'K');
    case CursorHome =>
    case SaveCursor =>
    case RestoreCursor =>
    case NoOp =>
  }

  lemma EncodeCount(n: nat, final: char)
    requires TakesCount(final)
    ensures DecodeToken(Encode(CountCommand(final, n))) == CountCommand(final, n)
  {
    assert Encode(CountCommand(final, n)) == Csi(false, DecimalString(n), final);
    DecodeCount(n, final);
  }

  lemma CountRoundTrip(n: nat, default: nat)
    ensures Count(DecimalString(n), default) == n
  {
    DecimalRoundTrip(n);
  }

  /** A written count reaches the command unchanged. */
  lemma DecodeCount(n: nat, final: char)
    requires TakesCount(final)
    ensures Decode(false, DecimalString(n), final) == CountCommand(final, n)
  {
    CountRoundTrip(n, DefaultCount(final));
  }

  /** CUP (`H`) and HVP (`f`) with two counts go to that row and column. */
  lemma DecodePosition(r: nat, c: nat, final: char)
    requires final == 'H' || final == 'f'
    ensures Decode(false, DecimalString(r) + ";" + DecimalString(c), final) == CursorPosition(r, c)
  {
    var dr, dc := DecimalString(r), DecimalString(c);
    assert !AllDigits(dr + ";" + dc) by {
      assert (dr + ";" + dc)[|dr|] == ';';
    }
    SplitPairOf(dr, dc);
    DecimalRoundTrip(r);
    DecimalRoundTrip(c);
  }

  /** H and f with two counts, whatever digits spell them, are a cursor
      position. */
  lemma DecodePair(params: string, final: char)
    requires (final == 'H' || final == 'f') && SplitPair(params).Some?
    ensures Decode(false, params, final)
         == CursorPosition(DecimalValue(SplitPair(params).value.0), DecimalValue(SplitPair(params).value.1))
  {
    assert !TakesCount(final);
  }

  /** The parameter shapes each final letter accepts. A `?` sequence does
      nothing; a missing count is the default; a parameter that is not a
      single count turns A-D, G, J and K into no-ops; H and f without
      parameters go home, and with anything but two counts do nothing; s and
      u take no parameters; every other final letter does nothing. */
  lemma DecodeShapes(params: string, final: char)
    ensures Decode(true, params, final) == NoOp
    ensures final in "ABCDG" ==> Decode(false, "", final) == Decode(false, "1", final)
    ensures final in "JK" ==> Decode(false, "", final) == Decode(false, "0", final)
    ensures TakesCount(final) && !AllDigits(params) ==> Decode(false, params, final) == NoOp
    ensures final in "Hf" ==> Decode(false, "", final) == CursorHome
    ensures final in "Hf" && params != [] && SplitPair(params).None? ==> Decode(false, params, final) == NoOp
    ensures final in "smu" && params != [] ==> Decode(false, params, final) == NoOp
    ensures !TakesCount(final) && !(final in "Hfsu") ==> Decode(false, params, final) == NoOp
  {
  }

  /** Shapes the `when` patterns reject: a second count before A, a count
      before u, three counts or an empty row before H. */
  lemma RejectedShapes()
    ensures Decode(false, "1;2", 'A') == NoOp
    ensures Decode(false, "5", 'u') == NoOp
    ensures Decode(false, "1;2;3", 'H') == NoOp
    ensures Decode(false, ";5", 'f') == NoOp
  {
    assert !AllDigits("1;2") by { assert !IsDigit("1;2"[1]); }
    assert SplitPair("1;2;3").None? by {
      IndexOfAt("1;2;3", ';', 1);
      assert "1;2;3"[2..] == "2;3";
      assert !AllDigits("2;3") by { assert !IsDigit("2;3"[1]); }
    }
    assert SplitPair(";5").None? by {
      IndexOfAt(";5", ';', 0);
      assert ";5"[..0] == [];
    }
  }
}

=== FILE: properties.dfy ===
/** What the emulator promises, stated over the functions of module Screen. */
module Properties {
  import opened Tokenizer
  import opened Control
  import opened Screen

  // ---------------------------------------------------------------------
  // Writing one character

  /** A character written inside the grid, other than in its last cell,
      lands in the cursor cell and changes nothing else; the cursor moves
      right, or to the start of the next row from the last column. */
  lemma PutCharStores(t: Term, c: char)
    requires Valid(t) && InGrid(t)
    requires t.x + 1 < t.width || t.y + 1 < t.height
    ensures var u := PutChar(t, c);
      && |u.buffer| == |t.buffer|
      && |u.buffer[t.y]| == |t.buffer[t.y]|
      && u.buffer[t.y][t.x] == c
      && (forall col :: 0 <= col < |t.buffer[t.y]| && col != t.x ==> u.buffer[t.y][col] == t.buffer[t.y][col])
      && (forall r :: 0 <= r < |t.buffer| && r != t.y ==> u.buffer[r] == t.buffer[r])
      && (if t.x + 1 < t.width then u.x == t.x + 1 && u.y == t.y else u.x == 0 && u.y == t.y + 1)
  {
  }

  /** A character written in the last cell of the grid is stored; the wrap
      then takes the cursor below the grid, so the buffer scrolls: row 0 is
      dropped, every row moves up one and a blank row is appended. */
  lemma PutCharScrollsAtLastCell(t: Term, c: char)
    requires Valid(t) && t.x + 1 == t.width && t.y + 1 == t.height
    ensures var u := PutChar(t, c);
      && |u.buffer| == |t.buffer|
      && (forall r :: 0 <= r < |t.buffer| - 1 ==>
            u.buffer[r] == if r + 1 == t.y then t.buffer[t.y][t.x := c] else t.buffer[r + 1])
      && u.buffer[|t.buffer| - 1] == Blank(t.width)
      && u.x == 0 && u.y == t.height - 1
  {
  }

  /** A character that arrives while the cursor is outside the grid (below
      it after a line feed or a CUP, or right of it after CHA or CUP) is not
      stored. It causes a wrap when the cursor is right of the grid and at
      most one scroll, after which the cursor is back on the last row. */
  lemma PutCharOutsideGrid(t: Term, c: char)
    requires Valid(t) && !InGrid(t)
    ensures var u := PutChar(t, c);
      && u.buffer == (if t.y + 1 < t.height then t.buffer else Scrolled(t.buffer, t.width))
      && u.x == (if t.x >= t.width then 0 else t.x)
      && u.y == Min(t.y + 1, t.height - 1)
  {
  }

  /** The row after writing s over it from column x. */
  function Overwrite(row: seq<char>, x: nat, s: string): (r: seq<char>)
    requires x + |s| <= |row|
    ensures |r| == |row|
    ensures forall i :: 0 <= i < |row| ==> r[i] == if x <= i < x + |s| then s[i - x] else row[i]
  {
    row[..x] + s + row[x + |s|..]
  }

  /** Text that fits in the rest of the cursor row is laid down from the
      cursor; the cursor ends after it, or at the start of the next row when
      the text exactly fills the row. */
  lemma {:induction false} WriteInRow(t: Term, s: string)
    requires Valid(t) && t.y < t.height && t.x + |s| <= t.width
    requires t.x + |s| == t.width ==> s != [] && t.y + 1 < t.height
    ensures Write(t, s) == t.(buffer := t.buffer[t.y := Overwrite(t.buffer[t.y], t.x, s)],
                              x := if t.x + |s| < t.width then t.x + |s| else 0,
                              y := if t.x + |s| < t.width then t.y else t.y + 1)
    decreases |s|
  {
    var row := t.buffer[t.y];
    if s == [] {
      assert Overwrite(row, t.x, s) == row;
      assert t.buffer[t.y := row] == t.buffer;
    } else {
      var init := s[..|s| - 1];
      WriteInRow(t, init);
      assert Overwrite(row, t.x, init)[t.x + |init| := s[|s| - 1]] == Overwrite(row, t.x, s);
    }
  }

  /** A line feed from the last row followed by a character: the character
      is not stored anywhere, and the only effect is one scroll. */
  lemma LineFeedAtBottomDropsChar(t: Term, c: char)
    requires Valid(t) && t.y + 1 == t.height
    ensures Apply(t, LineFeed).Ok?
    ensures Write(Apply(t, LineFeed).value, [c])
         == t.(buffer := Scrolled(t.buffer, t.width), x := 0, y := t.height - 1)
  {
    var u := Apply(t, LineFeed).value;
    assert [c][..0] == [];
    PutCharOutsideGrid(u, c);
  }

  // ---------------------------------------------------------------------
  // Shape of the grid

  lemma PutCharKeepsShape(t: Term, c: char)
    requires Valid(t) && Exact(t)
    ensures Exact(PutChar(t, c))
  {
  }

  /** Writing text keeps exactly `height` rows of `width` cells. */
  lemma {:induction false} WriteKeepsShape(t: Term, s: string)
    requires Valid(t) && Exact(t)
    ensures Exact(Write(t, s))
    decreases |s|
  {
    if s != [] {
      WriteKeepsShape(t, s[..|s| - 1]);
      PutCharKeepsShape(Write(t, s[..|s| - 1]), s[|s| - 1]);
    }
  }

  /** The two ways a sequence changes the grid's shape: erasing to the left
      (ED 1, EL 1) with the cursor at or right of the margin lengthens the
      row to x + 1 cells, and EL 2 one row below the buffer appends a row. */
  predicate Grows(t: Term, cmd: Command) {
    || ((cmd == EraseInDisplay(1) || cmd == EraseInLine(1)) && t.x >= t.width)
    || (cmd == EraseInLine(2) && t.y >= |t.buffer|)
  }

  /** A command that succeeds on a grid of `height` rows of `width` cells
      keeps that shape exactly when it is not one of the growing erasures. */
  lemma ExecuteKeepsShape(t: Term, cmd: Command)
    requires Valid(t) && Exact(t) && Execute(t, cmd).Ok?
    ensures Exact(Execute(t, cmd).value) <==> !Grows(t, cmd)
  {
    var u := Execute(t, cmd).value;
    match cmd
    case EraseInDisplay(mode) =>
      if mode == 0 {
        assert forall r :: 0 <= r < |u.buffer| ==> |u.buffer[r]| == t.width by {
          forall r | 0 <= r < |u.buffer| ensures |u.buffer[r]| == t.width {
            assert |t.buffer[r]| == t.width;
          }
        }
      } else if mode == 1 {
        if t.x >= t.width {
          assert |u.buffer[t.y]| == t.x + 1;
        } else {
          assert forall r :: 0 <= r < |u.buffer| ==> |u.buffer[r]| == t.width by {
            forall r | 0 <= r < |u.buffer| ensures |u.buffer[r]| == t.width {
              assert |t.buffer[r]| == t.width;
            }
          }
        }
      }
    case EraseInLine(mode) =>
      if mode == 1 && t.x >= t.width {
        assert |u.buffer[t.y]| == t.x + 1;
      }
    case _ =>
  }

  // ---------------------------------------------------------------------
  // Cursor movement

  /** CUU, CUD, CUF and CUB move one coordinate by n or up to the edge of
      the grid, and change nothing else. */
  lemma RelativeMoves(t: Term, n: nat)
    requires Valid(t)
    ensures var u := Execute(t, CursorUp(n)).value;
      u == t.(y := u.y) && (u.y == t.y - n || (u.y == 0 && n > t.y))
    ensures var u := Execute(t, CursorDown(n)).value;
      u == t.(y := u.y) && (u.y == t.y + n || (u.y == t.height - 1 && t.y + n > t.height - 1))
    ensures var u := Execute(t, CursorForward(n)).value;
      u == t.(x := u.x) && (u.x == t.x + n || (u.x == t.width - 1 && t.x + n > t.width - 1))
    ensures var u := Execute(t, CursorBack(n)).value;
      u == t.(x := u.x) && (u.x == t.x - n || (u.x == 0 && n > t.x))
  {
  }

  /** From a cursor inside the grid a relative move stays inside it; CUD and
      CUF also pull a cursor that is past the bottom or right edge back to
      the last row or column, even with a count of 0. */
  lemma RelativeMovesClamp(t: Term, n: nat)
    requires Valid(t)
    ensures InGrid(t) ==> InGrid(Execute(t, CursorUp(n)).value) && InGrid(Execute(t, CursorBack(n)).value)
    ensures Execute(t, CursorDown(n)).value.y < t.height
    ensures Execute(t, CursorForward(n)).value.x < t.width
  {
  }

  /** An explicit count of 0 leaves a cursor inside the grid where it is, and
      a missing count moves it by one. */
  lemma CountDefaults(t: Term, final: char)
    requires Valid(t) && InGrid(t)
    requires final == 'A' || final == 'B' || final == 'C' || final == 'D'
    ensures Execute(t, Decode(false, "0", final)) == Ok(t)
    ensures Execute(t, Decode(false, "", final)) == Execute(t, Decode(false, "1", final))
    ensures final == 'A' && t.y >= 1 ==> Execute(t, Decode(false, "", final)) == Ok(t.(y := t.y - 1))
    ensures final == 'C' && t.x + 1 < t.width ==> Execute(t, Decode(false, "", final)) == Ok(t.(x := t.x + 1))
  {
    assert DecimalValue("0") == 0;
    assert DecimalValue("1") == 1;
  }

  /** CHA and CUP clamp at the first row and column only: a position past the
      grid is taken as it is, and the cursor leaves the grid. */
  lemma AbsoluteMoves(t: Term, row: nat, col: nat)
    requires Valid(t)
    ensures var u := Execute(t, CursorColumn(col)).value;
      u == t.(x := u.x) && u.x + 1 == (if col == 0 then 1 else col)
    ensures var u := Execute(t, CursorPosition(row, col)).value;
      && u == t.(x := u.x, y := u.y)
      && u.y + 1 == (if row == 0 then 1 else row)
      && u.x + 1 == (if col == 0 then 1 else col)
      && (col > t.width || row > t.height ==> !InGrid(u))
    ensures Execute(t, CursorHome) == Ok(t.(x := 0, y := 0))
  {
  }

  /** CR returns to the first column of the same row; LF goes to the first
      column of the next row, even below the grid. Neither touches the grid. */
  lemma LineControls(t: Term)
    requires Valid(t)
    ensures Apply(t, CarriageReturn) == Ok(t.(x := 0))
    ensures Apply(t, LineFeed) == Ok(t.(x := 0, y := t.y + 1))
    ensures t.y + 1 == t.height ==> !InGrid(Apply(t, LineFeed).value)
  {
  }

  /** DEC private sequences (`ESC [ ? 25 h`), SGR (`ESC [ ... m`) and every
      sequence no handler accepts change nothing. */
  lemma IgnoredSequences(t: Term, params: string, final: char)
    requires Valid(t)
    ensures Apply(t, Csi(true, params, final)) == Ok(t)
    ensures final == 'm' ==> Apply(t, Csi(false, params, final)) == Ok(t)
    ensures !TakesCount(final) && final != 'H' && final != 'f' && final != 's' && final != 'u'
            ==> Apply(t, Csi(false, params, final)) == Ok(t)
  {
  }

  // ---------------------------------------------------------------------
  // Saving and restoring the cursor

  predicate IsSave(tok: Token) { tok.Csi? && DecodeToken(tok) == SaveCursor }

  /** Every token but `ESC [ s` leaves the saved cursor alone. */
  lemma {:induction false} RunKeepsSaved(t: Term, toks: seq<Token>)
    requires Valid(t) && Run(t, toks).Ok?
    requires forall i :: 0 <= i < |toks| ==> !IsSave(toks[i])
    ensures Run(t, toks).value.savedX == t.savedX && Run(t, toks).value.savedY == t.savedY
    decreases |toks|
  {
    if toks != [] {
      var init := toks[..|toks| - 1];
      RunKeepsSaved(t, init);
      assert !IsSave(toks[|toks| - 1]);
    }
  }

  /** `ESC [ u` returns the cursor to where the last `ESC [ s` found it,
      whatever ran in between. */
  lemma RestoreReturnsToSave(t: Term, toks: seq<Token>)
    requires Valid(t)
    requires Run(Execute(t, SaveCursor).value, toks).Ok?
    requires forall i :: 0 <= i < |toks| ==> !IsSave(toks[i])
    ensures var u := Run(Execute(t, SaveCursor).value, toks).value;
      Execute(u, RestoreCursor) == Ok(u.(x := t.x, y := t.y))
  {
    SaveIs(t);
    var saved := Execute(t, SaveCursor).value;
    RunKeepsSaved(saved, toks);
    RestoreIs(Run(saved, toks).value);
  }

  lemma SaveIs(t: Term)
    requires Valid(t)
    ensures Execute(t, SaveCursor) == Ok(t.(savedX := t.x, savedY := t.y))
  {
  }

  lemma RestoreIs(u: Term)
    requires Valid(u)
    ensures Execute(u, RestoreCursor) == Ok(u.(x := u.savedX, y := u.savedY))
  {
  }

  /** A second save replaces the first. */
  lemma SaveOverwrites(t: Term, toks: seq<Token>)
    requires Valid(t) && Run(Execute(t, SaveCursor).value, toks).Ok?
    ensures var u := Run(Execute(t, SaveCursor).value, toks).value;
      Execute(u, SaveCursor) == Ok(u.(savedX := u.x, savedY := u.y))
  {
  }

  // ---------------------------------------------------------------------
  // Erasing

  /** The cells EL clears in the cursor row, for modes 0, 1 and 2. */
  predicate InLineRegion(mode: nat, col: nat, x: nat) {
    (mode == 0 && col >= x) || (mode == 1 && col <= x) || mode == 2
  }

  /** The cells ED clears, for modes 0 to 3. */
  predicate InDisplayRegion(mode: nat, row: nat, col: nat, x: nat, y: nat) {
    || (mode == 0 && (row > y || (row == y && col >= x)))
    || (mode == 1 && (row < y || (row == y && col <= x)))
    || mode == 2 || mode == 3
  }

  /** With the cursor inside a grid of `height` rows of `width` cells, EL blanks its
      region of the cursor row and leaves every other cell and the cursor. */
  lemma EraseLineRegion(t: Term, mode: nat)
    requires Valid(t) && Exact(t) && InGrid(t) && mode <= 2
    ensures EraseLine(t, mode).Ok?
    ensures var u := EraseLine(t, mode).value;
      && Exact(u) && u.x == t.x && u.y == t.y
      && forall r, c :: 0 <= r < t.height && 0 <= c < t.width ==>
           u.buffer[r][c] == if r == t.y && InLineRegion(mode, c, t.x) then ' ' else t.buffer[r][c]
  {
  }

  /** With the cursor inside a grid of `height` rows of `width` cells, ED blanks its
      region and leaves every other cell and the cursor. */
  lemma EraseDisplayRegion(t: Term, mode: nat)
    requires Valid(t) && Exact(t) && InGrid(t) && mode <= 3
    ensures EraseDisplay(t, mode).Ok?
    ensures var u := EraseDisplay(t, mode).value;
      && Exact(u) && u.x == t.x && u.y == t.y
      && forall r, c :: 0 <= r < t.height && 0 <= c < t.width ==>
           u.buffer[r][c] == if InDisplayRegion(mode, r, c, t.x, t.y) then ' ' else t.buffer[r][c]
  {
    ExecuteKeepsShape(t, EraseInDisplay(mode));
  }

  /** Modes beyond those handled change nothing. */
  lemma EraseOtherModes(t: Term, mode: nat)
    requires Valid(t)
    ensures mode > 3 ==> EraseDisplay(t, mode) == Ok(t)
    ensures mode > 2 ==> EraseLine(t, mode) == Ok(t)
  {
  }

  /** When erasing fails, and with which fault: mode 0 needs the cursor at
      most at the right margin (else NegativeArraySize) and on an existing
      row (else NoRow), mode 1 an existing row (else NoRow); EL 2 appends a
      row one past the end and fails with RowGap further down; ED 2 and 3
      never fail. */
  lemma EraseFaults(t: Term)
    requires Valid(t)
    ensures EraseDisplay(t, 0).Fail? <==> t.x > t.width || t.y >= |t.buffer|
    ensures EraseLine(t, 0).Fail? <==> t.x > t.width || t.y >= |t.buffer|
    ensures EraseDisplay(t, 0).Fail? ==> EraseDisplay(t, 0).fault == (if t.x > t.width then NegativeArraySize else NoRow)
    ensures EraseLine(t, 0).Fail? ==> EraseLine(t, 0).fault == (if t.x > t.width then NegativeArraySize else NoRow)
    ensures EraseDisplay(t, 1).Fail? ==> EraseDisplay(t, 1).fault == NoRow
    ensures EraseLine(t, 1).Fail? ==> EraseLine(t, 1).fault == NoRow
    ensures EraseLine(t, 2).Fail? ==> EraseLine(t, 2).fault == RowGap
    ensures EraseDisplay(t, 1).Fail? <==> t.y >= |t.buffer|
    ensures EraseLine(t, 1).Fail? <==> t.y >= |t.buffer|
    ensures EraseLine(t, 2).Fail? <==> t.y > |t.buffer|
    ensures t.y == |t.buffer| ==> EraseLine(t, 2) == Ok(t.(buffer := t.buffer + [Blank(t.width)]))
    ensures EraseDisplay(t, 2).Ok? && EraseDisplay(t, 3).Ok?
  {
  }

  /** A line feed on the last row leaves the cursor one row below the grid,
      where an erase of the line to the right raises. */
  lemma LineFeedThenEraseRaises(t: Term)
    requires Valid(t) && Exact(t) && t.y == t.height - 1
    ensures Apply(t, LineFeed).Ok?
    ensures EraseLine(Apply(t, LineFeed).value, 0) == Fail(NoRow)
  {
  }

  // ---------------------------------------------------------------------
  // Line feeds never enter the grid

  lemma PutCharKeepsNoLineFeeds(t: Term, c: char)
    requires Valid(t) && NoLineFeeds(t) && c != LF
    ensures NoLineFeeds(PutChar(t, c))
  {
    var b1 := if InGrid(t) then t.buffer[t.y := t.buffer[t.y][t.x := c]] else t.buffer;
    assert forall r :: 0 <= r < |b1| ==> NoLineFeed(b1[r]);
    assert NoLineFeed(Blank(t.width));
  }

  lemma {:induction false} WriteKeepsNoLineFeeds(t: Term, s: string)
    requires Valid(t) && NoLineFeeds(t) && IsText(s)
    ensures NoLineFeeds(Write(t, s))
    decreases |s|
  {
    if s != [] {
      var init := s[..|s| - 1];
      assert IsText(init) by {
        forall i | 0 <= i < |init| ensures IsTextChar(init[i]) { assert init[i] == s[i]; }
      }
      WriteKeepsNoLineFeeds(t, init);
      assert IsTextChar(s[|s| - 1]);
      PutCharKeepsNoLineFeeds(Write(t, init), s[|s| - 1]);
    }
  }

  lemma EraseKeepsNoLineFeeds(t: Term, cmd: Command)
    requires Valid(t) && NoLineFeeds(t) && (cmd.EraseInDisplay? || cmd.EraseInLine?)
    requires Execute(t, cmd).Ok?
    ensures NoLineFeeds(Execute(t, cmd).value)
  {
    var b := Execute(t, cmd).value.buffer;
    assert NoLineFeed(Blank(t.width));
    forall r | 0 <= r < |t.buffer|
      ensures NoLineFeed(ClearLeft(t.buffer[r], t.x))
      ensures t.x <= t.width ==> NoLineFeed(ClearRight(t.buffer[r], t.x, t.width))
    {
      assert NoLineFeed(t.buffer[r]);
    }
    forall r | 0 <= r < |b| ensures NoLineFeed(b[r]) {
      if r < |t.buffer| {
        assert NoLineFeed(t.buffer[r]);
      }
    }
  }

  lemma ApplyKeepsNoLineFeeds(t: Term, tok: Token)
    requires Valid(t) && NoLineFeeds(t) && WellFormed(tok) && Apply(t, tok).Ok?
    ensures NoLineFeeds(Apply(t, tok).value)
  {
    match tok
    case Text(s) => WriteKeepsNoLineFeeds(t, s);
    case Csi(_, _, _) =>
      var cmd := DecodeToken(tok);
      if cmd.EraseInDisplay? || cmd.EraseInLine? {
        EraseKeepsNoLineFeeds(t, cmd);
      }
    case _ =>
  }

  /** No row of a grid built by process_text holds a line feed. */
  lemma {:induction false} RunKeepsNoLineFeeds(t: Term, toks: seq<Token>)
    requires Valid(t) && NoLineFeeds(t) && Run(t, toks).Ok?
    requires forall i :: 0 <= i < |toks| ==> WellFormed(toks[i])
    ensures NoLineFeeds(Run(t, toks).value)
    decreases |toks|
  {
    if toks != [] {
      var init := toks[..|toks| - 1];
      RunKeepsNoLineFeeds(t, init);
      ApplyKeepsNoLineFeeds(Run(t, init).value, toks[|toks| - 1]);
    }
  }

  // ---------------------------------------------------------------------
  // Rendering

  lemma {:induction false} SplitJoin(rows: seq<string>)
    requires rows != []
    requires forall i, j :: 0 <= i < |rows| && 0 <= j < |rows[i]| ==> rows[i][j] != LF
    ensures SplitLines(JoinLines(rows)) == rows
  {
    if |rows| == 1 {
      assert IndexOf(rows[0], LF) == |rows[0]|;
    } else {
      var head, s := rows[0], JoinLines(rows);
      assert s == head + [LF] + JoinLines(rows[1..]);
      IndexOfAt(s, LF, |head|);
      assert s[..|head|] == head;
      assert s[|head| + 1..] == JoinLines(rows[1..]);
      SplitJoin(rows[1..]);
    }
  }

  /** to_s gives back the rows up to the last one holding a non-space,
      trailing spaces included, one per line. */
  lemma RenderSplits(b: seq<seq<char>>)
    requires b != []
    requires forall i, j :: 0 <= i < |b| && 0 <= j < |b[i]| ==> b[i][j] != LF
    ensures SplitLines(Render(b)) == b[..LastInked(b) + 1]
  {
    SplitJoin(b[..LastInked(b) + 1]);
  }

  lemma {:induction false} LastInkedIgnoresBlankRows(b: seq<seq<char>>, e: seq<seq<char>>)
    requires b != []
    requires forall i :: 0 <= i < |e| ==> !HasInk(e[i])
    ensures LastInked(b + e) == LastInked(b)
    decreases |e|
  {
    if e != [] {
      var e' := e[..|e| - 1];
      assert (b + e)[..|b + e| - 1] == b + e';
      assert (b + e)[|b + e| - 1] == e[|e| - 1];
      LastInkedIgnoresBlankRows(b, e');
    } else {
      assert b + e == b;
    }
  }

  /** Blank rows at the bottom of the grid do not show in the output. */
  lemma RenderIgnoresBlankRows(b: seq<seq<char>>, e: seq<seq<char>>)
    requires b != []
    requires forall i :: 0 <= i < |e| ==> !HasInk(e[i])
    ensures Render(b + e) == Render(b)
  {
    LastInkedIgnoresBlankRows(b, e);
    assert (b + e)[..LastInked(b) + 1] == b[..LastInked(b) + 1];
  }

  /** The row index to_s stops at, from the rows below it being blank and
      the row itself holding a non-space (or being row 0). */
  lemma LastInkedIs(b: seq<seq<char>>, k: nat)
    requires k < |b|
    requires forall i :: k < i < |b| ==> !HasInk(b[i])
    requires k == 0 || HasInk(b[k])
    ensures LastInked(b) == k
  {
  }

  /** When only the first row may hold ink, to_s is that row, trailing
      spaces included. */
  lemma RenderFirstRowOnly(b: seq<seq<char>>)
    requires b != []
    requires forall i :: 0 < i < |b| ==> !HasInk(b[i])
    ensures Render(b) == b[0]
  {
    LastInkedIs(b, 0);
  }

  /** Running one more token: the run's fault, or the token applied to the
      run's result. */
  lemma RunSnoc(t: Term, toks: seq<Token>, tok: Token)
    requires Valid(t)
    ensures Run(t, toks + [tok]) == if Run(t, toks).Fail? then Run(t, toks) else Apply(Run(t, toks).value, tok)
  {
    assert (toks + [tok])[..|toks|] == toks;
  }
}

=== FILE: scenarios.dfy ===
/** Whole runs of process_text followed by to_s, from the scanned input to
    the rendered screen. */
module Scenarios {
  import opened Tokenizer
  import opened Control
  import opened Screen
  import opened Properties

  lemma SpellAll1(a: Token)
    ensures SpellAll([a]) == Spell(a)
  {
  }

  lemma SpellAll2(a: Token, b: Token)
    ensures SpellAll([a, b]) == Spell(a) + Spell(b)
  {
    assert [a, b][1..] == [b];
    SpellAll1(b);
  }

  lemma SpellAll3(a: Token, b: Token, c: Token)
    ensures SpellAll([a, b, c]) == Spell(a) + Spell(b) + Spell(c)
  {
    assert [a, b, c][1..] == [b, c];
    SpellAll2(b, c);
  }

  lemma Run1(t: Term, a: Token)
    requires Valid(t)
    ensures Run(t, [a]) == Apply(t, a)
  {
    assert [a][..0] == [];
  }

  lemma Run2(t: Term, a: Token, b: Token)
    requires Valid(t) && Apply(t, a).Ok?
    ensures Run(t, [a, b]) == Apply(Apply(t, a).value, b)
  {
    Run1(t, a);
    assert [a, b] == [a] + [b];
    RunSnoc(t, [a], b);
  }

  /** Three tokens run one after the other. */
  lemma Run3(t: Term, a: Token, b: Token, c: Token)
    requires Valid(t) && Apply(t, a).Ok? && Apply(Apply(t, a).value, b).Ok?
    ensures Run(t, [a, b, c]) == Apply(Apply(Apply(t, a).value, b).value, c)
  {
    Run2(t, a, b);
    assert [a, b, c] == [a, b] + [c];
    RunSnoc(t, [a, b], c);
  }

  lemma OverwriteBlank(w: nat, x: nat, s: string)
    requires x + |s| <= w
    ensures Overwrite(Blank(w), x, s) == Blank(x) + s + Blank(w - x - |s|)
    ensures x == 0 ==> Overwrite(Blank(w), x, s) == s + Blank(w - |s|)
  {
    assert Blank(0) + s == s;
    assert Blank(w)[..x] == Blank(x);
    assert Blank(w)[x + |s|..] == Blank(w - x - |s|);
  }

  lemma BlankHasNoInk(w: nat)
    ensures !HasInk(Blank(w))
  {
  }

  lemma PaddedIsText(s: string, n: nat)
    requires IsText(s)
    ensures IsText(s + Blank(n))
  {
    assert forall i :: 0 <= i < |s + Blank(n)| ==> (s + Blank(n))[i] == if i < |s| then s[i] else ' ';
  }

  /** Plain text no longer than a row renders as itself padded with spaces
      to the width of the grid; text that exactly fills the row renders as
      itself, the wrap leaving the next row blank. */
  lemma PlainText(w: nat, h: nat, s: string)
    requires w >= 1 && h >= 2
    requires s != [] && IsText(s) && |s| <= w
    ensures ProcessText(Init(w, h), s).Ok?
    ensures Render(ProcessText(Init(w, h), s).value.buffer) == s + Blank(w - |s|)
  {
    var t := Init(w, h);
    assert SpellAll([Text(s)]) == s;
    ScanSpellAll([Text(s)]);
    assert Run(t, [Text(s)]) == Apply(t, Text(s)) by {
      assert [Text(s)][..0] == [];
    }
    WriteInRow(t, s);
    var b := Write(t, s).buffer;
    assert b[0] == s + Blank(w - |s|);
    forall i | 0 < i < |b| ensures !HasInk(b[i]) {
      BlankHasNoInk(w);
    }
    RenderFirstRowOnly(b);
  }

  lemma ScanCarriageReturn(a: string, b: string)
    requires a != [] && IsText(a) && b != [] && IsText(b)
    ensures Scan(a + [CR] + b) == [Text(a), CarriageReturn, Text(b)]
  {
    SpellAll3(Text(a), CarriageReturn, Text(b));
    ScanSpellAll([Text(a), CarriageReturn, Text(b)]);
  }

  lemma RunCarriageReturn(w: nat, h: nat, a: string, b: string)
    requires w >= 1 && h >= 1 && |a| < w && |b| < w
    ensures Run(Init(w, h), [Text(a), CarriageReturn, Text(b)])
         == Ok(Init(w, h).(buffer := BlankGrid(h, w)[0 := Overwrite(a + Blank(w - |a|), 0, b)], x := |b|))
  {
    var t := Init(w, h);
    OverwriteBlank(w, 0, a);
    WriteInRow(t, a);
    var s1 := t.(buffer := BlankGrid(h, w)[0 := a + Blank(w - |a|)], x := |a|);
    assert Apply(t, Text(a)) == Ok(s1);
    var s2 := s1.(x := 0);
    assert Apply(s1, CarriageReturn) == Ok(s2);
    WriteInRow(s2, b);
    assert s2.buffer[0 := Overwrite(a + Blank(w - |a|), 0, b)] == BlankGrid(h, w)[0 := Overwrite(a + Blank(w - |a|), 0, b)];
    assert Apply(s2, Text(b)) == Ok(t.(buffer := BlankGrid(h, w)[0 := Overwrite(a + Blank(w - |a|), 0, b)], x := |b|));
    Run3(t, Text(a), CarriageReturn, Text(b));
  }

  /** A carriage return lets the text after it overwrite the row from the
      first column; what the earlier text wrote beyond stays. */
  lemma CarriageReturnOverwrites(w: nat, h: nat, a: string, b: string)
    requires w >= 1 && h >= 1
    requires a != [] && IsText(a) && |a| < w
    requires b != [] && IsText(b) && |b| < w
    ensures ProcessText(Init(w, h), a + [CR] + b).Ok?
    ensures var row := Render(ProcessText(Init(w, h), a + [CR] + b).value.buffer);
      && |row| == w
      && row[..|b|] == b
      && forall i :: |b| <= i < w ==> row[i] == if i < |a| then a[i] else ' '
  {
    var row := Overwrite(a + Blank(w - |a|), 0, b);
    var u := Init(w, h).(buffer := BlankGrid(h, w)[0 := row], x := |b|);
    ScanCarriageReturn(a, b);
    RunCarriageReturn(w, h, a, b);
    ProcessTextIs(Init(w, h), a + [CR] + b, [Text(a), CarriageReturn, Text(b)], u);
    BlankHasNoInk(w);
    RenderFirstRowOnly(u.buffer);
    assert row[..|b|] == b;
  }

  lemma DecodeClearHome()
    ensures Decode(false, "2", 'J') == EraseInDisplay(2)
    ensures Decode(false, "", 'H') == CursorHome
  {
    assert DecimalValue("2") == 2;
  }

  /** `ESC [ 2 J` replaces the grid with a blank one and keeps the cursor. */
  lemma ApplyClear(t: Term)
    requires Valid(t)
    ensures Apply(t, Csi(false, "2", 'J')) == Ok(t.(buffer := BlankGrid(t.height, t.width)))
  {
    assert DecodeToken(Csi(false, "2", 'J')) == EraseInDisplay(2) by { DecodeClearHome(); }
  }

  /** `ESC [ H` puts the cursor at the origin and keeps the grid. */
  lemma ApplyHome(t: Term)
    requires Valid(t)
    ensures Apply(t, Csi(false, "", 'H')) == Ok(t.(x := 0, y := 0))
  {
    assert DecodeToken(Csi(false, "", 'H')) == CursorHome by { DecodeClearHome(); }
  }

  /** `ESC [ 2 J` then `ESC [ H`: a blank grid of `height` rows of `width`
      cells and the cursor at the origin. */
  lemma ClearHome(t: Term)
    requires Valid(t)
    ensures Run(t, [Csi(false, "2", 'J'), Csi(false, "", 'H')])
         == Ok(t.(buffer := BlankGrid(t.height, t.width), x := 0, y := 0))
  {
    var u := t.(buffer := BlankGrid(t.height, t.width));
    ApplyClear(t);
    ApplyHome(u);
    Run2(t, Csi(false, "2", 'J'), Csi(false, "", 'H'));
  }

  /** process_text over text that scans to `toks`, when the run of `toks`
      is known to give `u`. */
  lemma ProcessTextIs(t: Term, text: string, toks: seq<Token>, u: Term)
    requires Valid(t)
    requires Scan(text) == toks && Run(t, toks) == Ok(u)
    ensures ProcessText(t, text) == Ok(u)
  {
  }

  lemma ScanClearHome(s: string)
    requires s != [] && IsText(s)
    ensures Scan([ESC] + "[2J" + [ESC] + "[H" + s) == [Csi(false, "2", 'J'), Csi(false, "", 'H'), Text(s)]
  {
    var clear, home := Csi(false, "2", 'J'), Csi(false, "", 'H');
    SpellAll3(clear, home, Text(s));
    assert SpellAll([clear, home, Text(s)]) == [ESC] + "[2J" + [ESC] + "[H" + s;
    ScanSpellAll([clear, home, Text(s)]);
  }

  lemma RunClearHomeWrite(t: Term, s: string)
    requires Valid(t)
    ensures Run(t, [Csi(false, "2", 'J'), Csi(false, "", 'H'), Text(s)])
         == Ok(Write(t.(buffer := BlankGrid(t.height, t.width), x := 0, y := 0), s))
  {
    var clear, home := Csi(false, "2", 'J'), Csi(false, "", 'H');
    ClearHome(t);
    assert [clear, home, Text(s)] == [clear, home] + [Text(s)];
    RunSnoc(t, [clear, home], Text(s));
  }

  /** Text written from the origin of a blank grid, shorter than a row,
      renders as itself padded to the width. */
  lemma RenderWriteOnBlank(t: Term, s: string)
    requires Valid(t) && t.buffer == BlankGrid(t.height, t.width) && t.x == 0 && t.y == 0
    requires |s| < t.width
    ensures Render(Write(t, s).buffer) == s + Blank(t.width - |s|)
  {
    var b := Write(t, s).buffer;
    WriteInRow(t, s);
    OverwriteBlank(t.width, 0, s);
    forall i | 0 < i < |b| ensures !HasInk(b[i]) {
      BlankHasNoInk(t.width);
    }
    RenderFirstRowOnly(b);
  }

  /** Clearing the screen and homing the cursor forgets whatever the grid
      held: text written next renders alone. */
  lemma ClearThenWrite(t: Term, s: string)
    requires Valid(t)
    requires s != [] && IsText(s) && |s| < t.width
    ensures var text := [ESC] + "[2J" + [ESC] + "[H" + s;
      ProcessText(t, text).Ok? && Render(ProcessText(t, text).value.buffer) == s + Blank(t.width - |s|)
  {
    var u := t.(buffer := BlankGrid(t.height, t.width), x := 0, y := 0);
    ScanClearHome(s);
    RunClearHomeWrite(t, s);
    RenderWriteOnBlank(u, s);
    ProcessTextIs(t, [ESC] + "[2J" + [ESC] + "[H" + s, [Csi(false, "2", 'J'), Csi(false, "", 'H'), Text(s)], Write(u, s));
  }

  lemma DecodeCup()
    ensures Decode(false, "3;5", 'H') == CursorPosition(3, 5)
  {
    assert !AllDigits("3;5") by { assert !IsDigit("3;5"[1]); }
    SplitPairOf("3", "5");
    assert "3" + ";" + "5" == "3;5";
    assert DecimalValue("3") == 3 && DecimalValue("5") == 5;
  }

  lemma JoinLines3(r0: string, r1: string, r2: string)
    ensures JoinLines([r0, r1, r2]) == r0 + [LF] + r1 + [LF] + r2
  {
    assert [r0, r1, r2][1..] == [r1, r2];
    JoinLines2(r1, r2);
  }

  lemma JoinLines2(r0: string, r1: string)
    ensures JoinLines([r0, r1]) == r0 + [LF] + r1
  {
    assert [r0, r1][1..] == [r1];
  }

  lemma ScanPosition()
    ensures Scan([ESC] + "[3;5Hx") == [Csi(false, "3;5", 'H'), Text("x")]
  {
    var cup := Csi(false, "3;5", 'H');
    SpellAll2(cup, Text("x"));
    assert SpellAll([cup, Text("x")]) == [ESC] + "[3;5Hx";
    ScanSpellAll([cup, Text("x")]);
  }

  lemma RunPosition(w: nat, h: nat)
    requires w >= 6 && h >= 3
    ensures Run(Init(w, h), [Csi(false, "3;5", 'H'), Text("x")])
         == Ok(Init(w, h).(buffer := BlankGrid(h, w)[2 := Blank(4) + "x" + Blank(w - 5)], x := 5, y := 2))
  {
    var t := Init(w, h);
    DecodeCup();
    var u := t.(x := 4, y := 2);
    Run2(t, Csi(false, "3;5", 'H'), Text("x"));
    WriteInRow(u, "x");
    OverwriteBlank(w, 4, "x");
  }

  lemma RenderPosition(w: nat, h: nat)
    requires w >= 6 && h >= 3
    ensures Render(BlankGrid(h, w)[2 := Blank(4) + "x" + Blank(w - 5)])
         == Blank(w) + [LF] + Blank(w) + [LF] + Blank(4) + "x" + Blank(w - 5)
  {
    var b := BlankGrid(h, w)[2 := Blank(4) + "x" + Blank(w - 5)];
    assert b[2][4] != ' ';
    forall i | 2 < i < |b| ensures !HasInk(b[i]) {
      BlankHasNoInk(w);
    }
    LastInkedIs(b, 2);
    assert b[..3] == [b[0], b[1], b[2]];
    JoinLines3(b[0], b[1], b[2]);
  }

  /** `ESC [ 3 ; 5 H x` puts the x in row 2, column 4 (counting from 0);
      the two rows above it are emitted as blank rows. */
  lemma PositionThenWrite(w: nat, h: nat)
    requires w >= 6 && h >= 3
    ensures var text := [ESC] + "[3;5Hx";
      && ProcessText(Init(w, h), text).Ok?
      && Render(ProcessText(Init(w, h), text).value.buffer)
         == Blank(w) + [LF] + Blank(w) + [LF] + Blank(4) + "x" + Blank(w - 5)
  {
    ScanPosition();
    RunPosition(w, h);
    RenderPosition(w, h);
    ProcessTextIs(Init(w, h), [ESC] + "[3;5Hx", [Csi(false, "3;5", 'H'), Text("x")],
      Init(w, h).(buffer := BlankGrid(h, w)[2 := Blank(4) + "x" + Blank(w - 5)], x := 5, y := 2));
  }

  /** Every command, sent as its canonical sequence, goes through the scanner
      and the dispatch and does exactly what the command does. */
  lemma EncodedCommandRuns(t: Term, cmd: Command)
    requires Valid(t)
    ensures ProcessText(t, Spell(Encode(cmd))) == Execute(t, cmd)
  {
    CsiRuns(t, Encode(cmd));
    DecodeEncode(cmd);
  }

  /** A single well-formed control sequence does what its decoded command does. */
  lemma CsiRuns(t: Term, tok: Token)
    requires Valid(t) && tok.Csi? && WellFormed(tok)
    ensures ProcessText(t, Spell(tok)) == Execute(t, DecodeToken(tok))
  {
    SpellAll1(tok);
    ScanSpellAll([tok]);
    Run1(t, tok);
  }

  /** Two counts separated by `;` are parameter characters. */
  lemma PairParams(params: string)
    requires SplitPair(params).Some?
    ensures forall i :: 0 <= i < |params| ==> IsParamChar(params[i])
  {
    var k := IndexOf(params, ';');
    assert params == params[..k] + [';'] + params[k + 1..];
    forall i | 0 <= i < |params| ensures IsParamChar(params[i]) {
      if i < k {
        assert params[i] == params[..k][i];
      } else if i > k {
        assert params[i] == params[k + 1..][i - k - 1];
      }
    }
  }

  /** CUP and HVP, `ESC [ r ; c H` and `ESC [ r ; c f`, move the cursor to
      row r, column c (counted from 1), whatever digits spell r and c. */
  lemma PositionRuns(t: Term, params: string, final: char, row: string, col: string)
    requires Valid(t) && (final == 'H' || final == 'f')
    requires SplitPair(params) == Some((row, col))
    ensures AllDigits(row) && AllDigits(col)
    ensures ProcessText(t, Spell(Csi(false, params, final)))
         == Execute(t, CursorPosition(DecimalValue(row), DecimalValue(col)))
         == Ok(t.(x := MovedTo(DecimalValue(col)), y := MovedTo(DecimalValue(row))))
  {
    var pos := Csi(false, params, final);
    PairParams(params);
    CsiRuns(t, pos);
    DecodePair(params, final);
    PositionIs(t, DecimalValue(row), DecimalValue(col));
  }

  /** The cell a 1-based CUP or CHA coordinate selects; 0 counts as 1. */
  function MovedTo(n: nat): nat { if n >= 1 then n - 1 else 0 }

  lemma PositionIs(t: Term, row: nat, col: nat)
    requires Valid(t)
    ensures Execute(t, CursorPosition(row, col)) == Ok(t.(x := MovedTo(col), y := MovedTo(row)))
  {
  }

  /** `ESC [ H` and `ESC [ f` put the cursor at the origin. */
  lemma HomeRuns(t: Term, final: char)
    requires Valid(t) && (final == 'H' || final == 'f')
    ensures ProcessText(t, Spell(Csi(false, "", final))) == Ok(t.(x := 0, y := 0))
  {
    CsiRuns(t, Csi(false, "", final));
    DecodeShapes("", final);
  }

  /** On a one-row grid a second line never shows: the line feed leaves the
      cursor below the grid, the next character is dropped and its scroll
      pushes the first line out. */
  lemma SecondLineOnOneRowVanishes(w: nat, a: char, c: char)
    requires w >= 2 && IsTextChar(a) && IsTextChar(c)
    ensures ProcessText(Init(w, 1), [a, LF, c]).Ok?
    ensures Render(ProcessText(Init(w, 1), [a, LF, c]).value.buffer) == Blank(w)
  {
    var t := Init(w, 1);
    SpellAll3(Text([a]), LineFeed, Text([c]));
    assert SpellAll([Text([a]), LineFeed, Text([c])]) == [a, LF, c];
    ScanSpellAll([Text([a]), LineFeed, Text([c])]);
    WriteInRow(t, [a]);
    var u := Write(t, [a]);
    LineFeedAtBottomDropsChar(u, c);
    Run3(t, Text([a]), LineFeed, Text([c]));
    var b := Scrolled(u.buffer, w);
    assert b == [Blank(w)];
    RenderFirstRowOnly(b);
  }

  lemma ScanTwoLines(a: string, b: string)
    requires a != [] && IsText(a) && b != [] && IsText(b)
    ensures Scan(a + [LF] + b) == [Text(a), LineFeed, Text(b)]
  {
    SpellAll3(Text(a), LineFeed, Text(b));
    ScanSpellAll([Text(a), LineFeed, Text(b)]);
  }

  /** The first line and the line feed after it. */
  lemma FirstLine(w: nat, h: nat, a: string)
    requires w >= 1 && h >= 4 && |a| <= w && a != []
    ensures var row := if |a| < w then 1 else 2;
      var s1 := Init(w, h).(buffer := BlankGrid(h, w)[0 := a + Blank(w - |a|)],
                            x := if |a| < w then |a| else 0, y := row - 1);
      && Apply(Init(w, h), Text(a)) == Ok(s1)
      && Apply(s1, LineFeed) == Ok(s1.(x := 0, y := row))
  {
    OverwriteBlank(w, 0, a);
    WriteInRow(Init(w, h), a);
  }

  lemma RunTwoLines(w: nat, h: nat, a: string, b: string)
    requires w >= 1 && h >= 4 && |a| <= w && |b| <= w && a != [] && b != []
    ensures var row := if |a| < w then 1 else 2;
      Run(Init(w, h), [Text(a), LineFeed, Text(b)])
      == Ok(Init(w, h).(buffer := BlankGrid(h, w)[0 := a + Blank(w - |a|)][row := b + Blank(w - |b|)],
                        x := if |b| < w then |b| else 0,
                        y := if |b| < w then row else row + 1))
  {
    var row := if |a| < w then 1 else 2;
    FirstLine(w, h, a);
    var s2 := Init(w, h).(buffer := BlankGrid(h, w)[0 := a + Blank(w - |a|)], x := 0, y := row);
    assert s2.buffer[row] == Blank(w);
    OverwriteBlank(w, 0, b);
    WriteInRow(s2, b);
    Run3(Init(w, h), Text(a), LineFeed, Text(b));
  }

  /** Two lines of plain text, each at most a row wide: the first fills row
      0; the second goes to row 1, or to row 2 when the first line filled its
      row and the wrap already moved the cursor down. */
  lemma TwoLines(w: nat, h: nat, a: string, b: string)
    requires w >= 1 && h >= 4
    requires a != [] && IsText(a) && |a| <= w
    requires b != [] && IsText(b) && |b| <= w
    ensures ProcessText(Init(w, h), a + [LF] + b).Ok?
    ensures ProcessText(Init(w, h), a + [LF] + b).value.buffer
         == BlankGrid(h, w)[0 := a + Blank(w - |a|)][if |a| < w then 1 else 2 := b + Blank(w - |b|)]
  {
    ScanTwoLines(a, b);
    RunTwoLines(w, h, a, b);
    var row := if |a| < w then 1 else 2;
    ProcessTextIs(Init(w, h), a + [LF] + b, [Text(a), LineFeed, Text(b)],
      Init(w, h).(buffer := BlankGrid(h, w)[0 := a + Blank(w - |a|)][row := b + Blank(w - |b|)],
                  x := if |b| < w then |b| else 0,
                  y := if |b| < w then row else row + 1));
  }

  lemma PaddedHasInk(s: string, n: nat)
    requires HasInk(s)
    ensures HasInk(s + Blank(n))
  {
    var j :| 0 <= j < |s| && s[j] != ' ';
    assert (s + Blank(n))[j] == s[j];
  }

  lemma RenderRows01(w: nat, h: nat, r0: string, r1: string)
    requires w >= 1 && h >= 2 && HasInk(r1)
    ensures Render(BlankGrid(h, w)[0 := r0][1 := r1]) == r0 + [LF] + r1
  {
    var b := BlankGrid(h, w)[0 := r0][1 := r1];
    BlankHasNoInk(w);
    LastInkedIs(b, 1);
    assert b[..2] == [r0, r1];
    JoinLines2(r0, r1);
  }

  lemma RenderRows02(w: nat, h: nat, r0: string, r2: string)
    requires w >= 1 && h >= 3 && HasInk(r2)
    ensures Render(BlankGrid(h, w)[0 := r0][2 := r2]) == r0 + [LF] + Blank(w) + [LF] + r2
  {
    var b := BlankGrid(h, w)[0 := r0][2 := r2];
    BlankHasNoInk(w);
    LastInkedIs(b, 2);
    assert b[..3] == [r0, Blank(w), r2];
    JoinLines3(r0, Blank(w), r2);
  }

  /** Rendering is not idempotent once the output has two lines: every
      emitted row is padded to the full width, so replaying it wraps the
      cursor to the next row before the line feed moves it once more, and a
      blank row appears between the two lines. */
  lemma RenderTwiceAddsBlankRow(w: nat, h: nat, a: string, b: string)
    requires w >= 1 && h >= 4
    requires a != [] && IsText(a) && |a| < w
    requires b != [] && IsText(b) && |b| < w && HasInk(b)
    ensures var first := ProcessText(Init(w, h), a + [LF] + b);
      && first.Ok?
      && Render(first.value.buffer) == (a + Blank(w - |a|)) + [LF] + (b + Blank(w - |b|))
    ensures var out := (a + Blank(w - |a|)) + [LF] + (b + Blank(w - |b|));
      var second := ProcessText(Init(w, h), out);
      && second.Ok?
      && Render(second.value.buffer) == (a + Blank(w - |a|)) + [LF] + Blank(w) + [LF] + (b + Blank(w - |b|))
      && Render(second.value.buffer) != out
  {
    var ra, rb := a + Blank(w - |a|), b + Blank(w - |b|);
    PaddedHasInk(b, w - |b|);
    PaddedIsText(a, w - |a|);
    PaddedIsText(b, w - |b|);
    ShortLinesRender(w, h, a, b);
    FullLinesRender(w, h, ra, rb);
    assert |ra + [LF] + rb| < |ra + [LF] + Blank(w) + [LF] + rb|;
  }

  lemma ShortLinesRender(w: nat, h: nat, a: string, b: string)
    requires w >= 1 && h >= 4
    requires a != [] && IsText(a) && |a| < w
    requires b != [] && IsText(b) && |b| < w && HasInk(b + Blank(w - |b|))
    ensures ProcessText(Init(w, h), a + [LF] + b).Ok?
    ensures Render(ProcessText(Init(w, h), a + [LF] + b).value.buffer)
         == (a + Blank(w - |a|)) + [LF] + (b + Blank(w - |b|))
  {
    TwoLines(w, h, a, b);
    RenderRows01(w, h, a + Blank(w - |a|), b + Blank(w - |b|));
  }

  lemma FullLinesRender(w: nat, h: nat, a: string, b: string)
    requires w >= 1 && h >= 4
    requires a != [] && IsText(a) && |a| == w
    requires b != [] && IsText(b) && |b| == w && HasInk(b)
    ensures ProcessText(Init(w, h), a + [LF] + b).Ok?
    ensures Render(ProcessText(Init(w, h), a + [LF] + b).value.buffer) == a + [LF] + Blank(w) + [LF] + b
  {
    TwoLines(w, h, a, b);
    assert a + Blank(0) == a && b + Blank(0) == b;
    RenderRows02(w, h, a, b);
  }

  /** Rendering is idempotent on one line of plain text: the padded row
      fills the grid's width exactly and renders as itself. */
  lemma RenderTwiceOneLine(w: nat, h: nat, s: string)
    requires w >= 1 && h >= 2
    requires s != [] && IsText(s) && |s| < w
    ensures ProcessText(Init(w, h), s).Ok?
    ensures var out := Render(ProcessText(Init(w, h), s).value.buffer);
      && ProcessText(Init(w, h), out).Ok?
      && Render(ProcessText(Init(w, h), out).value.buffer) == out
  {
    PlainText(w, h, s);
    var out := s + Blank(w - |s|);
    PaddedIsText(s, w - |s|);
    PlainText(w, h, out);
  }

  /** On a grid of one row, text that exactly fills the row wraps below the
      grid and scrolls itself out, so it prints as a blank row. This is why
      replaying a one-line output needs a second row (`RenderTwiceOneLine`):
      the output is padded to the full width. */
  lemma FullRowOnOneRowVanishes(w: nat, s: string)
    requires w >= 1 && s != [] && IsText(s) && |s| == w
    ensures ProcessText(Init(w, 1), s).Ok?
    ensures Render(ProcessText(Init(w, 1), s).value.buffer) == Blank(w)
  {
    var t := Init(w, 1);
    ScanOneText(s);
    Run1(t, Text(s));
    FullRowScrollsOut(t, s);
    ProcessTextIs(t, s, [Text(s)], Write(t, s));
    RenderFirstRowOnly([Blank(w)]);
  }

  lemma ScanOneText(s: string)
    requires s != [] && IsText(s)
    ensures Scan(s) == [Text(s)]
  {
    assert SpellAll([Text(s)]) == s;
    ScanSpellAll([Text(s)]);
  }

  /** From the start of a grid of one row, text that fills the row leaves
      only the blank row the scroll appends. */
  lemma FullRowScrollsOut(t: Term, s: string)
    requires Valid(t) && t.height == 1 && |t.buffer| == 1 && t.x == 0 && t.y == 0
    requires |s| == t.width
    ensures Write(t, s).buffer == [Blank(t.width)]
  {
    var init, c := s[..|s| - 1], s[|s| - 1];
    var u := Write(t, init);
    WriteToLastCell(t, init);
    WriteStep(t, s, |s| - 1);
    assert s[..|s|] == s;
    PutCharScrollsAtLastCell(u, c);
  }

  lemma WriteToLastCell(t: Term, init: string)
    requires Valid(t) && t.height == 1 && |t.buffer| == 1 && t.x == 0 && t.y == 0
    requires |init| + 1 == t.width
    ensures var u := Write(t, init);
      u.x + 1 == u.width && u.y + 1 == u.height && |u.buffer| == 1
  {
    WriteInRow(t, init);
  }
}

=== FILE: screen.dfy ===
/** The state of an AnsiCompile emulator as a value, and the effect of each
    token on it. The class in ansi_compile.dfy updates its fields in place and
    is proved to agree with these functions; the lemmas here state what the
    emulator promises.

    The buffer is a sequence of rows. Besides the shape `initialize` creates,
    Ruby reaches two more: a row longer than `width` (erasing to the left with
    the cursor past the right margin) and more than `height` rows (erasing a
    whole line one row below the last). Valid() admits both; Exact() is the
    shape `initialize` creates. */
module Screen {
  import opened Tokenizer
  import opened Control

  const DefaultWidth: nat := 120
  const DefaultHeight: nat := 1000

  datatype Term = Term(
    width: nat,
    height: nat,
    buffer: seq<seq<char>>,
    x: nat,         // cursor column
    y: nat,         // cursor row
    savedX: nat,
    savedY: nat)

  /** Why a sequence failed: `Array.new` with a negative size, or an index
      into a row that does not exist (`nil`), both of which raise in Ruby; or a
      whole-line erase more than one row past the end of the buffer, where
      Ruby pads the buffer with `nil` rows, which the model does not have. */
  datatype Fault = NegativeArraySize | NoRow | RowGap

  datatype Result<T> = Ok(value: T) | Fail(fault: Fault)

  function Min(a: int, b: int): int { if a <= b then a else b }

  function Blank(w: nat): (r: seq<char>)
    ensures |r| == w && forall i :: 0 <= i < w ==> r[i] == ' '
  {
    seq(w, _ => ' ')
  }

  function BlankGrid(h: nat, w: nat): (g: seq<seq<char>>)
    ensures |g| == h && forall r :: 0 <= r < h ==> g[r] == Blank(w)
  {
    seq(h, _ => Blank(w))
  }

  predicate Valid(t: Term) {
    && t.width >= 1 && t.height >= 1
    && |t.buffer| >= t.height
    && forall r :: 0 <= r < |t.buffer| ==> |t.buffer[r]| >= t.width
  }

  /** The shape `initialize` creates: exactly `height` rows of `width` cells. */
  predicate Exact(t: Term) {
    && |t.buffer| == t.height
    && forall r :: 0 <= r < |t.buffer| ==> |t.buffer[r]| == t.width
  }

  predicate InGrid(t: Term) { t.x < t.width && t.y < t.height }

  predicate NoLineFeed(row: seq<char>) { forall c :: 0 <= c < |row| ==> row[c] != LF }

  /** No row holds a line feed (so that the rendered text splits back into rows). */
  predicate NoLineFeeds(t: Term) {
    forall r :: 0 <= r < |t.buffer| ==> NoLineFeed(t.buffer[r])
  }

  /** AnsiCompile.new(width, height). */
  function Init(width: nat, height: nat): (t: Term)
    requires width >= 1 && height >= 1
    ensures Valid(t) && Exact(t) && NoLineFeeds(t)
    ensures t.width == width && t.height == height
    ensures forall r, c :: 0 <= r < height && 0 <= c < width ==> t.buffer[r][c] == ' '
    ensures t.x == 0 && t.y == 0 && t.savedX == 0 && t.savedY == 0
  {
    Term(width, height, BlankGrid(height, width), 0, 0, 0, 0)
  }

  /** The rows after `shift` and `push` of a blank row. */
  function Scrolled(b: seq<seq<char>>, width: nat): (b': seq<seq<char>>)
    requires b != []
    ensures |b'| == |b|
    ensures forall r :: 0 <= r < |b| - 1 ==> b'[r] == b[r + 1]
    ensures b'[|b| - 1] == Blank(width)
  {
    b[1..] + [Blank(width)]
  }

  /** Store the character if the cursor is in the grid, and advance. */
  function Store(t: Term, c: char): (t': Term)
    requires Valid(t)
    ensures Valid(t') && |t'.buffer| == |t.buffer|
    ensures !InGrid(t) ==> t' == t
    ensures InGrid(t) ==> t.y < |t'.buffer| && t.x < |t'.buffer[t.y]|
                          && t'.buffer[t.y][t.x] == c && t'.x == t.x + 1
    ensures t'.y == t.y && t'.width == t.width && t'.height == t.height
    ensures t'.savedX == t.savedX && t'.savedY == t.savedY
    ensures forall r, i :: 0 <= r < |t.buffer| && 0 <= i < |t.buffer[r]| && (r != t.y || i != t.x) ==>
      i < |t'.buffer[r]| && t'.buffer[r][i] == t.buffer[r][i]
  {
    if InGrid(t) then t.(buffer := t.buffer[t.y := t.buffer[t.y][t.x := c]], x := t.x + 1) else t
  }

  /** Wrap to the start of the next row from the right margin. */
  function Wrap(t: Term): (t': Term)
    ensures t'.buffer == t.buffer && t'.width == t.width && t'.height == t.height
    ensures t'.savedX == t.savedX && t'.savedY == t.savedY
    ensures t'.x < t.width || t.width == 0
    ensures t'.y == t.y + 1 <==> t.x >= t.width
    ensures t.x >= t.width ==> t'.x == 0 && t'.y == t.y + 1
    ensures t.x < t.width ==> t' == t
  {
    if t.x >= t.width then t.(x := 0, y := t.y + 1) else t
  }

  /** Scroll once if the cursor is below the grid. */
  function ScrollIfBelow(t: Term): (t': Term)
    requires Valid(t)
    ensures Valid(t') && |t'.buffer| == |t.buffer|
    ensures t'.y < t.height && t'.x == t.x
    ensures t'.width == t.width && t'.height == t.height
    ensures t'.savedX == t.savedX && t'.savedY == t.savedY
    ensures t.y < t.height ==> t' == t
    ensures t.y >= t.height ==> (t'.y == t.height - 1
      && t'.buffer[..|t.buffer| - 1] == t.buffer[1..] && t'.buffer[|t.buffer| - 1] == Blank(t.width))
  {
    if t.y >= t.height then t.(buffer := Scrolled(t.buffer, t.width), y := t.height - 1) else t
  }

  /** One character of write_text: store it if the cursor is in the grid,
      then wrap at the right margin, then scroll past the bottom. */
  function PutChar(t: Term, c: char): (t': Term)
    requires Valid(t)
    ensures Valid(t')
    ensures t'.width == t.width && t'.height == t.height && |t'.buffer| == |t.buffer|
    ensures t'.savedX == t.savedX && t'.savedY == t.savedY
    ensures InGrid(t')
  {
    ScrollIfBelow(Wrap(Store(t, c)))
  }

  /** write_text: the characters of s, one after the other. */
  function Write(t: Term, s: string): (t': Term)
    requires Valid(t)
    ensures Valid(t')
    ensures t'.width == t.width && t'.height == t.height && |t'.buffer| == |t.buffer|
    ensures t'.savedX == t.savedX && t'.savedY == t.savedY
    ensures s != [] ==> InGrid(t')
    decreases |s|
  {
    if s == [] then t else PutChar(Write(t, s[..|s| - 1]), s[|s| - 1])
  }

  lemma WriteStep(t: Term, s: string, i: nat)
    requires Valid(t) && i < |s|
    ensures Write(t, s[..i + 1]) == PutChar(Write(t, s[..i]), s[i])
  {
    assert s[..i + 1][..i] == s[..i];
  }

  /** `row[x..-1] = Array.new(width - x, ' ')`. */
  function ClearRight(row: seq<char>, x: nat, width: nat): (r: seq<char>)
    requires x <= width <= |row|
    ensures |r| == width
    ensures forall i :: 0 <= i < x ==> r[i] == row[i]
    ensures forall i :: x <= i < width ==> r[i] == ' '
  {
    row[..x] + Blank(width - x)
  }

  /** `row[0..x] = Array.new(x + 1, ' ')`: when x is past the end of the row
      the whole row is replaced, so it grows to x + 1 cells. */
  function ClearLeft(row: seq<char>, x: nat): (r: seq<char>)
    ensures |r| == if x < |row| then |row| else x + 1
    ensures |r| >= |row|
    ensures forall i :: 0 <= i <= x ==> r[i] == ' '
    ensures forall i :: x < i < |row| ==> r[i] == row[i]
  {
    if x < |row| then Blank(x + 1) + row[x + 1..] else Blank(x + 1)
  }

  /** ED (`ESC [ n J`). */
  function EraseDisplay(t: Term, mode: nat): (r: Result<Term>)
    requires Valid(t)
    ensures r.Ok? ==> Valid(r.value)
    ensures r.Ok? ==> r.value == t.(buffer := r.value.buffer)
  {
    if mode == 0 then
      if t.x > t.width then Fail(NegativeArraySize)
      else if t.y >= |t.buffer| then Fail(NoRow)
      else
        var b := seq(|t.buffer|, i requires 0 <= i < |t.buffer| =>
                   if i == t.y then ClearRight(t.buffer[i], t.x, t.width)
                   else if t.y < i < t.height then Blank(t.width)
                   else t.buffer[i]);
        assert forall i :: 0 <= i < |b| ==> |b[i]| >= t.width by {
          forall i | 0 <= i < |b| ensures |b[i]| >= t.width {
            assert |t.buffer[i]| >= t.width;
          }
        }
        Ok(t.(buffer := b))
    else if mode == 1 then
      if t.y >= |t.buffer| then Fail(NoRow)
      else
        var b := seq(|t.buffer|, i requires 0 <= i < |t.buffer| =>
                   if i < t.y then Blank(t.width)
                   else if i == t.y then ClearLeft(t.buffer[i], t.x)
                   else t.buffer[i]);
        assert forall i :: 0 <= i < |b| ==> |b[i]| >= t.width by {
          forall i | 0 <= i < |b| ensures |b[i]| >= t.width {
            assert |t.buffer[i]| >= t.width;
          }
        }
        Ok(t.(buffer := b))
    else if mode == 2 || mode == 3 then Ok(t.(buffer := BlankGrid(t.height, t.width)))
    else Ok(t)
  }

  /** EL (`ESC [ n K`). */
  function EraseLine(t: Term, mode: nat): (r: Result<Term>)
    requires Valid(t)
    ensures r.Ok? ==> Valid(r.value)
    ensures r.Ok? ==> r.value == t.(buffer := r.value.buffer)
  {
    if mode == 0 then
      if t.x > t.width then Fail(NegativeArraySize)
      else if t.y >= |t.buffer| then Fail(NoRow)
      else Ok(t.(buffer := t.buffer[t.y := ClearRight(t.buffer[t.y], t.x, t.width)]))
    else if mode == 1 then
      if t.y >= |t.buffer| then Fail(NoRow)
      else Ok(t.(buffer := t.buffer[t.y := ClearLeft(t.buffer[t.y], t.x)]))
    else if mode == 2 then
      if t.y < |t.buffer| then Ok(t.(buffer := t.buffer[t.y := Blank(t.width)]))
      else if t.y == |t.buffer| then Ok(t.(buffer := t.buffer + [Blank(t.width)]))
      else Fail(RowGap)
    else Ok(t)
  }

  /** process_ansi_sequence, once the sequence is decoded. */
  function Execute(t: Term, cmd: Command): (r: Result<Term>)
    requires Valid(t)
    ensures r.Ok? ==> Valid(r.value)
    ensures r.Ok? ==> r.value.width == t.width && r.value.height == t.height
  {
    match cmd
    case CursorUp(n) => Ok(t.(y := if t.y >= n then t.y - n else 0))
    case CursorDown(n) => Ok(t.(y := Min(t.y + n, t.height - 1)))
    case CursorForward(n) => Ok(t.(x := Min(t.x + n, t.width - 1)))
    case CursorBack(n) => Ok(t.(x := if t.x >= n then t.x - n else 0))
    case CursorColumn(n) => Ok(t.(x := if n >= 1 then n - 1 else 0))
    case CursorPosition(row, col) =>
      Ok(t.(y := if row >= 1 then row - 1 else 0, x := if col >= 1 then col - 1 else 0))
    case CursorHome => Ok(t.(x := 0, y := 0))
    case EraseInDisplay(mode) => EraseDisplay(t, mode)
    case EraseInLine(mode) => EraseLine(t, mode)
    case SaveCursor => Ok(t.(savedX := t.x, savedY := t.y))
    case RestoreCursor => Ok(t.(x := t.savedX, y := t.savedY))
    case NoOp => Ok(t)
  }

  /** One iteration of the `parts.each` loop of process_text. */
  function Apply(t: Term, tok: Token): (r: Result<Term>)
    requires Valid(t)
    ensures r.Ok? ==> Valid(r.value)
    ensures r.Ok? ==> r.value.width == t.width && r.value.height == t.height
  {
    match tok
    case Csi(_, _, _) => Execute(t, DecodeToken(tok))
    case CarriageReturn => Ok(t.(x := 0))
    case LineFeed => Ok(t.(x := 0, y := t.y + 1))
    case Text(s) => Ok(Write(t, s))
  }

  /** The tokens applied in order; the first fault ends the run. */
  function Run(t: Term, toks: seq<Token>): (r: Result<Term>)
    requires Valid(t)
    ensures r.Ok? ==> Valid(r.value)
    ensures r.Ok? ==> r.value.width == t.width && r.value.height == t.height
    decreases |toks|
  {
    if toks == [] then Ok(t)
    else
      match Run(t, toks[..|toks| - 1])
      case Fail(f) => Fail(f)
      case Ok(u) => Apply(u, toks[|toks| - 1])
  }

  lemma RunStep(t: Term, toks: seq<Token>, i: nat)
    requires Valid(t) && i < |toks| && Run(t, toks[..i]).Ok?
    ensures Run(t, toks[..i + 1]) == Apply(Run(t, toks[..i]).value, toks[i])
  {
    assert toks[..i + 1][..i] == toks[..i];
  }

  /** Once a run has raised, running more tokens raises the same fault. */
  lemma {:induction false} RunFailPersists(t: Term, toks: seq<Token>, k: nat)
    requires Valid(t)
    requires k <= |toks| && Run(t, toks[..k]).Fail?
    ensures Run(t, toks) == Run(t, toks[..k])
    decreases |toks| - k
  {
    if k < |toks| {
      assert toks[..k + 1][..k] == toks[..k];
      RunFailPersists(t, toks, k + 1);
    } else {
      assert toks[..k] == toks;
    }
  }

  /** process_text. */
  function ProcessText(t: Term, text: string): (r: Result<Term>)
    requires Valid(t)
    ensures r.Ok? ==> Valid(r.value) && r.value.width == t.width && r.value.height == t.height
  {
    Run(t, Scan(text))
  }

  predicate HasInk(row: seq<char>) { exists i :: 0 <= i < |row| && row[i] != ' ' }

  /** `@buffer.rindex { |line| line.any? { |char| char != ' ' } } || 0`. */
  function LastInked(b: seq<seq<char>>): (k: nat)
    ensures b != [] ==> k < |b|
    ensures forall i :: k < i < |b| ==> !HasInk(b[i])
    ensures 0 < k < |b| ==> HasInk(b[k])
    decreases |b|
  {
    if b == [] then 0
    else if HasInk(b[|b| - 1]) then |b| - 1
    else LastInked(b[..|b| - 1])
  }

  /** `rows.join("\n")`. */
  function JoinLines(rows: seq<string>): (s: string)
    ensures rows == [] ==> s == []
    ensures rows != [] ==> |rows[0]| <= |s| && s[..|rows[0]|] == rows[0]
    ensures |rows| > 1 ==> |rows[0]| < |s| && s[|rows[0]|] == LF
  {
    if rows == [] then []
    else if |rows| == 1 then rows[0]
    else rows[0] + [LF] + JoinLines(rows[1..])
  }

  /** to_s: the rows up to the last one with a non-space, joined by line feeds. */
  function Render(b: seq<seq<char>>): (s: string)
    ensures b != [] ==> |b[0]| <= |s| && s[..|b[0]|] == b[0]
    ensures b != [] ==> (|s| > |b[0]| <==> LastInked(b) > 0)
  {
    if b == [] then [] else JoinLines(b[..LastInked(b) + 1])
  }

  /** The text split at every line feed (the inverse of JoinLines). */
  function SplitLines(s: string): (rows: seq<string>)
    ensures rows != []
    decreases |s|
  {
    var k := IndexOf(s, LF);
    if k == |s| then [s] else [s[..k]] + SplitLines(s[k + 1..])
  }
}

=== FILE: tokenizer.dfy ===
/** The scanner of AnsiCompile#process_text: it splits captured terminal output
    into control sequences, carriage returns, line feeds and runs of literal
    text. The source uses one regular expression with four alternatives tried
    in order at every position; a position where none of them matches is
    skipped. Only an ESC can be skipped, because every other character starts
    a CR, LF or text token. */
module Tokenizer {

  const ESC: char := '\U{1B}'
  const CR: char := '\r'
  const LF: char := '\n'

  predicate IsDigit(c: char) { '0' <= c <= '9' }

  /** A character allowed between `ESC [` (or `ESC [ ?`) and the final letter. */
  predicate IsParamChar(c: char) { IsDigit(c) || c == ';' }

  predicate IsLetter(c: char) { 'A' <= c <= 'Z' || 'a' <= c <= 'z' }

  /** A character that belongs to a literal run: anything but ESC, CR and LF. */
  predicate IsTextChar(c: char) { c != ESC && c != CR && c != LF }

  predicate IsText(s: string) { forall i :: 0 <= i < |s| ==> IsTextChar(s[i]) }

  datatype Option<T> = None | Some(value: T)

  /** Index of the first occurrence of c in s, or |s| when there is none. */
  function IndexOf(s: string, c: char): (k: nat)
    ensures k <= |s|
    ensures forall i :: 0 <= i < k ==> s[i] != c
    ensures k < |s| ==> s[k] == c
  {
    if s == [] || s[0] == c then 0 else 1 + IndexOf(s[1..], c)
  }

  lemma {:induction false} IndexOfAt(s: string, c: char, k: nat)
    requires k < |s| && s[k] == c
    requires forall i :: 0 <= i < k ==> s[i] != c
    ensures IndexOf(s, c) == k
  {
    if k > 0 {
      IndexOfAt(s[1..], c, k - 1);
    }
  }

  datatype Token =
    | Csi(private: bool, params: string, final: char)  // ESC [ [?] [0-9;]* [A-Za-z]
    | CarriageReturn
    | LineFeed
    | Text(chars: string)

  /** The shapes the scanner can produce. */
  predicate WellFormed(tok: Token) {
    match tok
    case Csi(_, params, final) =>
      (forall i :: 0 <= i < |params| ==> IsParamChar(params[i])) && IsLetter(final)
    case Text(chars) => chars != [] && IsText(chars)
    case _ => true
  }

  /** The characters of the input a token stands for. */
  function Spell(tok: Token): string {
    match tok
    case Csi(private, params, final) =>
      [ESC, '['] + (if private then "?" else "") + params + [final]
    case CarriageReturn => [CR]
    case LineFeed => [LF]
    case Text(chars) => chars
  }

  function SpellAll(toks: seq<Token>): string {
    if toks == [] then [] else Spell(toks[0]) + SpellAll(toks[1..])
  }

  /** End of the longest run of parameter characters starting at `from`. */
  function ParamEnd(s: string, from: nat): (k: nat)
    requires from <= |s|
    ensures from <= k <= |s|
    ensures forall i :: from <= i < k ==> IsParamChar(s[i])
    ensures k < |s| ==> !IsParamChar(s[k])
    decreases |s| - from
  {
    if from < |s| && IsParamChar(s[from]) then ParamEnd(s, from + 1) else from
  }

  /** End of the longest run of literal text characters starting at `from`. */
  function TextEnd(s: string, from: nat): (k: nat)
    requires from <= |s|
    ensures from <= k <= |s|
    ensures forall i :: from <= i < k ==> IsTextChar(s[i])
    ensures k < |s| ==> !IsTextChar(s[k])
    decreases |s| - from
  {
    if from < |s| && IsTextChar(s[from]) then TextEnd(s, from + 1) else from
  }

  /** The first two alternatives of the scanner's pattern at the start of `s`:
      `ESC [ [0-9;]* letter`, or `ESC [ ? [0-9;]* letter`. */
  function MatchCsi(s: string): (m: Option<Token>)
    ensures m.Some? ==> m.value.Csi? && WellFormed(m.value)
    ensures m.Some? ==> |Spell(m.value)| <= |s| && s[..|Spell(m.value)|] == Spell(m.value)
  {
    if |s| >= 2 && s[0] == ESC && s[1] == '[' then
      var private := |s| >= 3 && s[2] == '?';
      var start := if private then 3 else 2;
      var k := ParamEnd(s, start);
      if k < |s| && IsLetter(s[k]) then
        var tok := Csi(private, s[start..k], s[k]);
        assert Spell(tok) == s[..k + 1];
        Some(tok)
      else None
    else None
  }

  /** The token list `text.scan(...)` produces. */
  function Scan(s: string): (toks: seq<Token>)
    ensures forall i :: 0 <= i < |toks| ==> WellFormed(toks[i])
    decreases |s|
  {
    if s == [] then []
    else if s[0] == ESC then
      match MatchCsi(s)
      case Some(tok) => [tok] + Scan(s[|Spell(tok)|..])
      case None => Scan(s[1..])
    else if s[0] == CR then [CarriageReturn] + Scan(s[1..])
    else if s[0] == LF then [LineFeed] + Scan(s[1..])
    else
      var k := TextEnd(s, 0);
      [Text(s[..k])] + Scan(s[k..])
  }

  /** Reference definition: the input with every ESC removed that does not
      begin a well-formed control sequence. */
  function StripStray(s: string): string {
    if s == [] then []
    else if s[0] == ESC && MatchCsi(s).None? then StripStray(s[1..])
    else [s[0]] + StripStray(s[1..])
  }

  lemma {:induction false} SpellAllAppend(a: seq<Token>, b: seq<Token>)
    ensures SpellAll(a + b) == SpellAll(a) + SpellAll(b)
  {
    if a == [] {
      assert a + b == b;
    } else {
      assert (a + b)[1..] == a[1..] + b;
      SpellAllAppend(a[1..], b);
    }
  }

  /** A prefix of length n whose first character is kept and whose other
      characters are not ESC passes through StripStray unchanged. */
  lemma {:induction false} StripStrayKeepsPrefix(s: string, n: nat)
    requires n <= |s|
    requires n > 0 ==> s[0] != ESC || MatchCsi(s).Some?
    requires forall i :: 0 < i < n ==> s[i] != ESC
    ensures StripStray(s) == s[..n] + StripStray(s[n..])
  {
    if n > 0 {
      StripStrayKeepsPrefix(s[1..], n - 1);
      assert s[1..][..n - 1] == s[1..n];
      assert s[1..][n - 1..] == s[n..];
      assert s[..n] == [s[0]] + s[1..n];
    }
  }

  /** Concatenating the tokens gives back the input, less the stray ESCs. */
  lemma {:induction false} ScanSpellsInput(s: string)
    ensures SpellAll(Scan(s)) == StripStray(s)
    decreases |s|
  {
    if s == [] {
    } else if s[0] == ESC {
      match MatchCsi(s)
      case Some(tok) =>
        var n := |Spell(tok)|;
        assert forall i :: 0 < i < n ==> s[i] == Spell(tok)[i];
        assert forall i :: 0 < i < n ==> s[i] != ESC;
        StripStrayKeepsPrefix(s, n);
        ScanSpellsInput(s[n..]);
        assert SpellAll([tok] + Scan(s[n..])) == Spell(tok) + SpellAll(Scan(s[n..]));
      case None =>
        ScanSpellsInput(s[1..]);
    } else if s[0] == CR || s[0] == LF {
      ScanSpellsInput(s[1..]);
      StripStrayKeepsPrefix(s, 1);
    } else {
      var k := TextEnd(s, 0);
      StripStrayKeepsPrefix(s, k);
      ScanSpellsInput(s[k..]);
    }
  }

  /** A well-formed control sequence at the head of the input is matched
      exactly: the scanner takes that token and no other. */
  lemma MatchCsiComplete(tok: Token, rest: string)
    requires tok.Csi? && WellFormed(tok)
    ensures MatchCsi(Spell(tok) + rest) == Some(tok)
  {
    var s := Spell(tok) + rest;
    var start := if tok.private then 3 else 2;
    var k := start + |tok.params|;
    assert s[..k] == [ESC, '['] + (if tok.private then "?" else "") + tok.params;
    assert s[k] == tok.final;
    assert forall i :: start <= i < k ==> s[i] == tok.params[i - start];
    ParamEndStops(s, start, k);
    assert s[start..k] == tok.params;
  }

  lemma {:induction false} ParamEndStops(s: string, from: nat, k: nat)
    requires from <= k < |s|
    requires forall i :: from <= i < k ==> IsParamChar(s[i])
    requires !IsParamChar(s[k])
    ensures ParamEnd(s, from) == k
    decreases k - from
  {
    if from < k {
      ParamEndStops(s, from + 1, k);
    }
  }

  lemma {:induction false} TextEndStops(s: string, from: nat, k: nat)
    requires from <= k <= |s|
    requires forall i :: from <= i < k ==> IsTextChar(s[i])
    requires k < |s| ==> !IsTextChar(s[k])
    ensures TextEnd(s, from) == k
    decreases k - from
  {
    if from < k {
      TextEndStops(s, from + 1, k);
    }
  }

  /** A token list the scanner can produce from its own spelling: every token
      well-formed and no literal run directly followed by another one (the
      scanner always takes the longest run). */
  predicate Separated(toks: seq<Token>) {
    forall i :: 0 <= i < |toks| - 1 ==> !(toks[i].Text? && toks[i + 1].Text?)
  }

  /** Scanning is the inverse of spelling on the lists the scanner produces. */
  lemma {:induction false} ScanSpellAll(toks: seq<Token>)
    requires forall i :: 0 <= i < |toks| ==> WellFormed(toks[i])
    requires Separated(toks)
    ensures Scan(SpellAll(toks)) == toks
  {
    if toks != [] {
      var tok, rest := toks[0], toks[1..];
      assert Separated(rest) by {
        forall i | 0 <= i < |rest| - 1 ensures !(rest[i].Text? && rest[i + 1].Text?) {
          assert rest[i] == toks[i + 1] && rest[i + 1] == toks[i + 2];
        }
      }
      ScanSpellAll(rest);
      var tail := SpellAll(rest);
      var s := Spell(tok) + tail;
      assert SpellAll(toks) == s;
      match tok
      case Csi(_, _, _) =>
        MatchCsiComplete(tok, tail);
        assert s[|Spell(tok)|..] == tail;
      case CarriageReturn =>
        assert s[1..] == tail;
      case LineFeed =>
        assert s[1..] == tail;
      case Text(chars) =>
        assert tail == [] || !IsTextChar(tail[0]) by {
          if rest != [] {
            assert !rest[0].Text?;
            assert SpellAll(rest) == Spell(rest[0]) + SpellAll(rest[1..]);
          }
        }
        TextEndStops(s, 0, |chars|);
        assert s[..|chars|] == chars;
        assert s[|chars|..] == tail;
    }
  }

  lemma {:induction false} StripStrayShorter(s: string)
    ensures |StripStray(s)| <= |s|
  {
    if s != [] {
      StripStrayShorter(s[1..]);
    }
  }

  /** A stray ESC is dropped, and the literal runs on either side of it stay
      two tokens. */
  lemma StrayEscSplitsText()
    ensures Scan("a" + [ESC] + "b") == [Text("a"), Text("b")]
    ensures SpellAll([Text("a"), Text("b")]) == "ab"
    ensures Scan("ab") == [Text("ab")]
  {
    var s := "a" + [ESC] + "b";
    TextEndStops(s, 0, 1);
    assert s[..1] == "a" && s[1..] == [ESC] + "b";
    var t := [ESC] + "b";
    assert MatchCsi(t).None?;
    assert t[1..] == "b";
    TextEndStops("b", 0, 1);
    assert "b"[..1] == "b" && "b"[1..] == [];
    assert Scan("b") == [Text("b")];
    assert Scan(t) == [Text("b")];
    assert Scan(s) == [Text("a")] + Scan(t);
    TextEndStops("ab", 0, 2);
    assert "ab"[..2] == "ab" && "ab"[2..] == [];
  }

  /** On input without a stray ESC, the scanner never puts two literal runs
      next to each other: every run it takes is the longest one. */
  lemma {:induction false} ScanSeparated(s: string)
    requires StripStray(s) == s
    ensures Separated(Scan(s))
    decreases |s|
  {
    if s == [] {
      return;
    }
    var head, n := HeadLength(s);
    var rest := s[n..];
    StripStrayKeepsPrefix(s, n);
    assert s == s[..n] + rest;
    ScanSeparated(rest);
    if head.Text? && rest != [] {
      RunThenNonText(rest);
    }
    SeparatedCons(head, Scan(rest));
  }

  /** The length of the first token of input without a stray ESC. */
  lemma HeadLength(s: string) returns (head: Token, n: nat)
    requires s != [] && StripStray(s) == s
    ensures 0 < n <= |s| && Scan(s) == [head] + Scan(s[n..])
    ensures s[0] != ESC || MatchCsi(s).Some?
    ensures forall i :: 0 < i < n ==> s[i] != ESC
    ensures head.Text? ==> n < |s| ==> !IsTextChar(s[n])
  {
    if s[0] == ESC {
      if MatchCsi(s).None? {
        StripStrayShorter(s[1..]);
        assert false;
      }
      head := MatchCsi(s).value;
      n := |Spell(head)|;
      assert forall i :: 0 < i < n ==> s[i] == Spell(head)[i];
    } else if s[0] == CR || s[0] == LF {
      head, n := Scan(s)[0], 1;
    } else {
      n := TextEnd(s, 0);
      head := Text(s[..n]);
    }
  }

  /** Input without a stray ESC that starts with ESC, CR or LF does not
      start with a literal run. */
  lemma RunThenNonText(rest: string)
    requires rest != [] && !IsTextChar(rest[0]) && StripStray(rest) == rest
    ensures Scan(rest) != [] && !Scan(rest)[0].Text?
  {
    if rest[0] == ESC && MatchCsi(rest).None? {
      StripStrayShorter(rest[1..]);
      assert false;
    }
  }

  lemma SeparatedCons(head: Token, toks: seq<Token>)
    requires Separated(toks)
    requires head.Text? && toks != [] ==> !toks[0].Text?
    ensures Separated([head] + toks)
  {
    var all := [head] + toks;
    forall i | 0 <= i < |all| - 1 ensures !(all[i].Text? && all[i + 1].Text?) {
      if i > 0 {
        assert all[i] == toks[i - 1] && all[i + 1] == toks[i];
      }
    }
  }
}
